=== FILE: README.md ===
# gndict dictionary generator — a Dafny model

gndict builds the word dictionaries that a scientific-name finder uses. This
project models the two stages that carry its logic and proves their
properties.

- **Classification** (`Preproc`) reads a corpus of name strings.
  - Hybrid names (those holding the multiplication sign U+00D7) are skipped.
  - Every other name is split on single spaces.
  - A one-word name counts as a genus if the genus authority list knows it, and as a uninomial otherwise.
  - In a longer name:
    - every epithet not on the species blacklist counts as a species word;
    - unless the first epithet is blacklisted, the genus is counted;
    - the name is also recorded as a canonical form, cut before the first blacklisted epithet.
  - A final reconciliation pass moves every uninomial that also turned up as a genus into the genus table.
- **Dictionary building** (`Output`) splits the `word,count` rows of the uninomial, genus and species tables into two tiers.
  - Rows are dropped when the lower-cased word is on the table's blacklist or the word fails the period, digit or length tests.
  - Grey tier: the word is short or a common European word.
  - White tier: the rest.
  - Grey genera are expanded into the genus–epithet combinations of their canonical forms.
  - The reference word lists are written out sorted.
  - Each file holds its lines joined by line breaks and trimmed.
- **Reference data** (`WordLists`) turns each embedded word list into the set of its trimmed lines.

Modules:

- `Text`: the Go string primitives used.
  - `strings.Split`/`Join`, `Cut`, `TrimSpace` and `ToLower`.
  - `unicode.IsDigit`.
  - `len` as a UTF-8 byte count.
- `Order`: Go's byte-wise string order, sorting and de-duplication. UTF-8 preserves code-point order, so Go's byte order is the character order used here.
- `Tally`: Go's `map[string]int` frequency tables.
- `WordLists`: `internal/ent/data/data.go`.
- `Preproc`: `internal/ent/preproc.go`.
- `Output`: `internal/ent/output.go`.

Behaviour of the code that a reader might not expect, and that the model keeps:

- `toMap` keeps every trimmed line, blank ones included. A word list whose text ends in a line break therefore contains the empty string (internal/ent/data/data.go:36-39, `WordLists.ToSetTrailingNewline`).
- The species length test `len(sp) < 2` counts bytes, not characters. A single non-ASCII letter therefore passes it (`Output.SpeciesLengthRule`).
- The grey length test `len(word) < 4` also counts bytes (`Output.GreyLengthRule`).
- The rune literal at internal/ent/preproc.go:55 is the multiplication sign U+00D7 (`Preproc.HybridSign`).
- Classification looks an epithet up in the species blacklist as written (internal/ent/preproc.go:143), while the species tiers look up its lower-cased form (internal/ent/output.go:263-264). A capitalised form of a blacklisted word thus stays in a canonical form (`Preproc.CanonicalExactCase`).
- The grey genus–species file `in-ambig/genera_species.csv` is not filtered by the species tests. An epithet with a period, or one whose lower-cased form is on the blacklist, is listed with its grey genus, although the species tiers drop its own row (`Output.GreySpeciesUnfiltered`). An epithet that is on the blacklist exactly as written never gets there: classification cuts the canonical form before it (`Preproc.PreprocessWellFormed`).
- The tiers look up the lower-cased word, but `toMap` keeps each list entry's own case (internal/ent/data/data.go:38-39). A list entry with a capital letter therefore never matches in the tiers. A word that is literally on the uninomial blacklist, but whose lower-cased form is not, is kept in a tier (`Output.CapitalisedEntryKept`).

## Model

| member | source | states |
|---|---|---|
| Text.SplitJoin | internal/ent/preproc.go:160 | joining words that hold no space and splitting the result on spaces gives the words back |
| Text.JoinSplit | internal/ent/preproc.go:121 | splitting a name on spaces and joining the pieces again gives the name back |
| Text.SplitSingle | internal/ent/preproc.go:121-129 | a name splits into exactly one word if and only if it holds no space, and that word is the name itself |
| Text.SplitConcat | internal/ent/preproc.go:121 | splitting two strings joined by a separator gives the pieces of the first followed by the pieces of the second |
| Text.Before | internal/ent/output.go:88 | the name part of a row is a prefix without commas, and is followed by a comma whenever it is shorter than the row |
| Text.BeforeIsFirstPiece | internal/ent/output.go:88 | the part before the first comma is the first piece of splitting on commas |
| Text.TrimSpace | internal/ent/output.go:357 | the trimmed string has no white space at either end and is the infix between the leading and the trailing white space |
| Text.TrimSpaceUnique | internal/ent/data/data.go:38 | any infix with white space around it and non-space ends is the trimmed string |
| Text.TrimSpaceTrimmed | internal/ent/output.go:357 | a string without white space at its ends is left unchanged, so trimming twice is trimming once |
| Text.ToLowerProperties | internal/ent/output.go:251 | lowering case is idempotent, leaves every character that is not a capital letter in its place, and a non-letter is in the lowered string exactly when it is in the original |
| Text.ByteLen | internal/ent/output.go:268 | Go's `len` counts between one and four bytes per character and exactly one per ASCII character |
| Text.ByteLenBelowTwo | internal/ent/output.go:268 | `len(w) < 2` holds exactly for the empty word and a single ASCII character |
| Order.LeTransitive | internal/ent/output.go:146 | the string order is transitive |
| Order.LeAntisymmetric | internal/ent/output.go:146 | two strings that each sort no later than the other are equal |
| Order.Insert | internal/ent/output.go:146 | inserting into a sorted list keeps it sorted and adds exactly that element |
| Order.Sort | internal/ent/output.go:144-146 | the sorted list is ordered and is a permutation of the input |
| Order.SortedUnique | internal/ent/output.go:144-146 | two sorted permutations of each other are equal, so the output does not depend on the input order |
| Order.SortPermutation | internal/ent/output.go:316 | two lists sort to the same list if and only if they are permutations of each other |
| Order.Dedup | internal/ent/output.go:152-182 | removing repeats from a sorted list gives a strictly increasing list with the same members |
| Order.StrictlySortedUnique | internal/ent/output.go:176-182 | a strictly increasing list is determined by its set of members |
| Order.StrictlySortedCard | internal/ent/output.go:294-311 | a strictly increasing list has as many entries as its set of members |
| Tally.Inc | internal/ent/preproc.go:134 | `m[k] += 1` makes `k` a key, raises its count by one and changes no other count |
| Tally.TotalInc | internal/ent/preproc.go:149 | one increment raises the sum of all counts by one |
| Tally.TotalPointwise | internal/ent/preproc.go:170-178 | tables that agree word by word on their combined counts have the same combined total |
| WordLists.ToSet | internal/ent/data/data.go:34-42 | every trimmed line of the list is a member, and no member has white space at its ends |
| WordLists.ToSetFromLine | internal/ent/data/data.go:36-40 | every member is the trimmed form of some line of the text |
| WordLists.ToSetKeepsLine | internal/ent/data/data.go:36-40 | a line without white space at its ends is a member exactly as written, capitals included |
| WordLists.ToSetTrailingNewline | internal/ent/data/data.go:36-40 | text ending with a line break puts the empty string into the set |
| WordLists.New | internal/ent/data/data.go:25-32 | all four reference sets hold only trimmed words |
| Preproc.WordsUni | internal/ent/preproc.go:132-138 | a one-word name raises its genus count when it is on the authority list and its uninomial count otherwise, and nothing else changes |
| Preproc.CountEpithets | internal/ent/preproc.go:142-150 | each non-blacklisted word gains as many species counts as it occurs as an epithet; blacklisted words gain nothing |
| Preproc.FirstBlacklisted | internal/ent/preproc.go:141-147 | the cut is the position of the first blacklisted epithet, or 0 when there is none |
| Preproc.Kept | internal/ent/preproc.go:159-163 | the canonical words are the longest prefix without a blacklisted epithet |
| Preproc.WordsSp | internal/ent/preproc.go:140-164 | species counts rise even for a discarded name; a name whose first epithet is blacklisted changes neither the genera nor the canonical forms; any other name adds one to its genus and records the join of its kept words |
| Preproc.Words | internal/ent/preproc.go:120-130 | a name without a space is a one-word name, and a name with one is handled word by word |
| Preproc.CleanupUni | internal/ent/preproc.go:166-179 | afterwards no word is both a uninomial and a genus; genus keys are unchanged; uninomials that were genera are gone and the rest keep their counts; each word's uninomial plus genus count is preserved |
| Preproc.ClassifySkipsHybrids | internal/ent/preproc.go:54-58 | classifying the corpus is classifying it with its hybrid names removed |
| Preproc.StepCounts | internal/ent/preproc.go:54-59 | one name adds its head word once to the uninomial and genus tables together, and adds its non-blacklisted epithets to the species table |
| Preproc.ClassifyCounts | internal/ent/preproc.go:54-59 | over the corpus, each word's uninomial plus genus count rises by the number of names it heads, and its species count by its occurrences as an epithet |
| Preproc.ClassifyTotal | internal/ent/preproc.go:54-59 | the combined uninomial and genus total rises by the number of names that head an entry |
| Preproc.CleanupUniTotal | internal/ent/preproc.go:166-179 | reconciliation keeps the combined uninomial and genus total |
| Preproc.PreprocessCounts | internal/ent/preproc.go:52-60 | after the whole stage, each word's uninomial plus genus count is the number of names it heads, species counts are epithet occurrences of non-blacklisted words, the total is the number of heads, and no word is both uninomial and genus |
| Preproc.CanonicalShape | internal/ent/preproc.go:158-163 | a kept canonical form splits back into its kept words: at least two words, headed by the genus, with no blacklisted epithet |
| Preproc.PreprocessWellFormed | internal/ent/preproc.go:52-60 | all counts are positive; no uninomial is on the authority list; no species word is blacklisted; every canonical form has a counted genus and no blacklisted epithet |
| Preproc.CanonicalExactCase | internal/ent/preproc.go:140-163 | a two-word name whose epithet is not on the species blacklist as written, a capitalised blacklisted word for instance, is recorded as a canonical form |
| Preproc.Example | internal/ent/preproc.go:52-60 | for the names "g a", "g a b" and "g" with distinct epithets and empty lists (for example "Aus bus", "Aus bus cus", "Aus"): the uninomial table ends empty, g is a genus counted three times because the bare name is reconciled, a and b are species words counted twice and once, and "g a" and "g a b" are the canonical forms |
| Output.RowName | internal/ent/output.go:88 | the name read from a `word,count` row is the word, when the word has no comma |
| Output.TestsIgnoreCase | internal/ent/output.go:249-291 | the uninomial, species and grey tests give the same answer for a word and for its lower-cased form |
| Output.CapitalisedEntryKept | internal/ent/output.go:249-260 | a word on the uninomial blacklist whose lower-cased form is not on it, and that has no period, is not dropped from the uninomial tiers |
| Output.SpeciesLengthRule | internal/ent/output.go:262-278 | a word whose lower-cased form is not blacklisted and has no period or digit is rejected as a species exactly when it is empty or one ASCII character |
| Output.GreyLengthRule | internal/ent/output.go:280-291 | a word that is grey by length has fewer than four characters; for ASCII words that are not common words, grey means fewer than four letters |
| Output.UninomialProblemsRule | internal/ent/output.go:249-260 | a word is rejected as a uninomial if and only if its lower-cased form is blacklisted or the word contains a period |
| Output.SelectCounts | internal/ent/output.go:87-97 | a tier holds each line that belongs to it as often as the input does, and holds no other line |
| Output.SelectTiers | internal/ent/output.go:229-241 | the partition loop puts every line, as often as it occurs, into the white tier, the grey tier or neither, according to its word |
| Output.Partition | internal/ent/output.go:129-147 | both tiers come out sorted; white lines pass their tests and are not grey, grey lines pass and are grey; a line is kept if and only if its word passes the table's tests |
| Output.TierMembership | internal/ent/output.go:87-100 | read from the counts: a kept line is in a tier, and a dropped line is in neither |
| Output.NameCombosWords | internal/ent/output.go:186-196 | for a canonical form of two or more space-free words, a name is a combination if and only if its words are the whole form or, for three words or more, the genus with its first or with its second epithet |
| Output.CombosMembers | internal/ent/output.go:163-175 | a combination is produced if and only if some expanded canonical form yields it |
| Output.GreySpecies | internal/ent/output.go:151-184 | the result is strictly sorted, and a name is in it if and only if it is a combination of a canonical form of two or more words whose genus is a grey genus |
| Output.GreySpeciesGenus | internal/ent/output.go:163-171 | every grey species entry has at least two words and begins with a grey genus |
| Output.GreySpeciesUnfiltered | internal/ent/output.go:163-175 | the grey genus–species file lists the two-word canonical form of a grey genus whatever its epithet, even a dotted one or one whose lower-cased form is blacklisted, whose own row the species tiers drop |
| Output.GreyExample | internal/ent/output.go:151-184 | for a grey genus g with the canonical forms "g a b" and "g a" (for example "Aus bus cus" and "Aus bus"), the grey species are exactly "g a", "g a b" and "g b" |
| Output.SortedMembers | internal/ent/output.go:294-316 | the dump of a set lists each member once, sorted, with as many entries as the set has members |
| Output.FromData | internal/ent/output.go:293-320 | the common words and the two blacklists are each dumped once per member, in strictly increasing order |
| Output.Content | internal/ent/output.go:356-357 | the written content has no white space at either end |
| Output.ContentReadsBack | internal/ent/output.go:356-357 | when no line holds a break and the outer ends are not white space, the file splits back into exactly the written lines |
| Output.Create | internal/ent/output.go:54-78 | each of the six tier files (in and in-ambig uninomials, genera and species) is sorted and holds every input line of its table that belongs to that tier, exactly as often as the input does, and no other line; so no word whose lower-cased form is on the blacklist, and no dotted or malformed word, reaches them; white files hold no grey word and grey files only grey words; the genus–species file is the grey species of the grey genera; the not-in and common files list their word lists once each, sorted |
| Output.BuiltUnique | internal/ent/output.go:54-78 | two dictionaries that meet `Create`'s guarantees for the same lists, table lines and canonical forms are equal and give the same files, whatever order `greySpecies` and `fromData` visit map keys in |
| Output.BuiltIgnoresInputOrder | internal/ent/output.go:54-78 | the same holds when the table lines come in another order with the same multiplicities and the canonical forms in another order with the same members, as the classification stage writes its cache files in map order |
| Output.Files | internal/ent/output.go:105-119 | every path of the dictionary holds trimmed content |
| Output.FileReadsBack | internal/ent/output.go:344-364 | each file reads back as its lines under the conditions of `ContentReadsBack` |

## Left out

- File and directory I/O is not modelled: `NewOutput`'s directory creation and cleaning, `os.Create`, `WriteString`, and the error returns that stop `Create` early. The contents the files would hold are modelled.
- Reading the cached files (`sysio.ReadFile`, a `bufio.Scanner` loop) and the embedded word-list texts are not modelled. Their results are parameters: the corpus names, the authority genera, the table rows, the canonical forms and the four list texts.
- `makeCSV`, `makeCanonicals` and `gnfmt.ToCSV` quoting are left out. The tables and the canonical set are handed on as values. A row is read as the part before the first comma; `Output.Row` writes one for a word without commas or quotes.
- Go map iteration order is not modelled: the order in which `cleanupUni`, `greySpecies`, `fromData`, `makeCSV` and `makeCanonicals` visit keys. Every file of the dictionary is sorted. `Output.BuiltUnique` shows that the dictionary, and so every file, does not depend on the order inside the builder. The cache files `uninomials.csv`, `genera.csv`, `species.csv` and `canonicals.csv` are written in map order and reach the builder as line sequences; `Output.BuiltIgnoresInputOrder` shows that the dictionary does not depend on the order of those lines either. `cleanupUni`'s result does not depend on the visit order because each key is updated on its own and the updates commute; the model applies them as one map comprehension.
- Text.ToLower: `strings.ToLower` is modelled on ASCII letters only. Non-ASCII capitals are left as they are, so a blacklisted or common word written with such a capital is not matched.
- Output.TestsIgnoreCase: holds for the model because `Text.ToLower` lowers ASCII letters only, keeping the byte length. Go's `strings.ToLower` maps U+212A KELVIN SIGN (three bytes) to `k` (one byte), so `isGreyWord("\u212Aab")` (length 5) can be false while `isGreyWord("kab")` is true, and `speciesProblems("\u212A")` passes the length test that `speciesProblems("k")` fails.
- Text.IsDigit: `unicode.IsDigit` is modelled as the ASCII digits only. A species word whose only digit is another Unicode decimal digit passes the model's test but not the code's.
- Go strings are byte strings. The model's strings are sequences of Unicode scalar values, so invalid UTF-8 input is not represented.
- The `ION` word list is read (`WordLists.New`) but not used by the modelled code. The unused `GenSp` field of `data.Data` is left out.
- Downloading the names database, the command line and the configuration are outside this model (`cmd/root.go`, `internal/io/downloaderio`, `pkg/config`).
- Output.Files: the Go code writes each file through a separate `saveStrings` call. The model lists all ten (path, content) pairs in writing order.

=== FILE: order.dfy ===
/**
 Ordering of strings and the sorted lists the dictionary files consist of.

 Go compares strings byte by byte (`sort.Strings`, `slices.Sort`). UTF-8
 encoding preserves the order of code points, so comparing the UTF-8 bytes
 of two strings is comparing their characters lexicographically, which is
 what `Le` does.
 */
module Order {

  /** `a` sorts no later than `b`: `a` is a prefix of `b`, or `a` has the
      smaller character at the first place where they differ. */
  predicate Le(a: string, b: string)
    decreases |a|
  {
    |a| == 0 || (|b| > 0 && (a[0] < b[0] || (a[0] == b[0] && Le(a[1..], b[1..]))))
  }

  lemma LeReflexive(a: string)
    ensures Le(a, a)
  {
  }

  lemma LeTotal(a: string, b: string)
    ensures Le(a, b) || Le(b, a)
  {
  }

  lemma {:induction false} LeAntisymmetric(a: string, b: string)
    requires Le(a, b) && Le(b, a)
    ensures a == b
    decreases |a|
  {
    if |a| > 0 {
      LeAntisymmetric(a[1..], b[1..]);
      assert a == [a[0]] + a[1..] && b == [b[0]] + b[1..];
    }
  }

  lemma {:induction false} LeTransitive(a: string, b: string, c: string)
    requires Le(a, b) && Le(b, c)
    ensures Le(a, c)
    decreases |a|
  {
    if |a| > 0 && a[0] == b[0] && b[0] == c[0] {
      LeTransitive(a[1..], b[1..], c[1..]);
    }
  }

  /** Every element sorts no later than every element after it. */
  predicate Sorted(s: seq<string>)
  {
    forall i, j :: 0 <= i < j < |s| ==> Le(s[i], s[j])
  }

  /** Sorted, and no element occurs twice. */
  predicate StrictlySorted(s: seq<string>)
  {
    forall i, j :: 0 <= i < j < |s| ==> Le(s[i], s[j]) && s[i] != s[j]
  }

  /** `x` placed into the sorted list `s` before the first element that
      sorts after it. */
  function Insert(x: string, s: seq<string>): (r: seq<string>)
    requires Sorted(s)
    ensures Sorted(r)
    ensures multiset(r) == multiset(s) + multiset{x}
    decreases |s|
  {
    if |s| == 0 then [x]
    else if Le(x, s[0]) then
      LeToAll(x, s);
      [x] + s
    else
      LeTotal(x, s[0]);
      var t := Insert(x, s[1..]);
      assert s == [s[0]] + s[1..];
      FirstBelowAll(s[0], t, s[1..], x);
      [s[0]] + t
  }

  /* If x <= s[0] and s is sorted then x is at most every element. */
  lemma LeToAll(x: string, s: seq<string>)
    requires Sorted(s) && |s| > 0 && Le(x, s[0])
    ensures Sorted([x] + s)
  {
    forall j | 0 < j < |s| ensures Le(x, s[j]) {
      LeTransitive(x, s[0], s[j]);
    }
  }

  /* A head below every element of u and of {x} is below every element of
     t when t is a permutation of u plus x. */
  lemma FirstBelowAll(h: string, t: seq<string>, u: seq<string>, x: string)
    requires Sorted(t)
    requires multiset(t) == multiset(u) + multiset{x}
    requires Le(h, x)
    requires forall j :: 0 <= j < |u| ==> Le(h, u[j])
    ensures Sorted([h] + t)
  {
    forall j | 0 <= j < |t| ensures Le(h, t[j]) {
      assert t[j] in multiset(t);
      if t[j] != x {
        assert t[j] in multiset(u);
        var k :| 0 <= k < |u| && u[k] == t[j];
      }
    }
  }

  /** Insertion sort: a sorted permutation of `s`, as Go's `sort.Strings`
      leaves its argument. */
  function Sort(s: seq<string>): (r: seq<string>)
    ensures Sorted(r)
    ensures multiset(r) == multiset(s)
    decreases |s|
  {
    if |s| == 0 then []
    else
      assert s == [s[0]] + s[1..];
      Insert(s[0], Sort(s[1..]))
  }

  /** A sorted list is determined by its elements: two sorted lists that
      are permutations of each other are equal. So the sorted output does
      not depend on the order in which the elements were produced. */
  lemma {:induction false} SortedUnique(a: seq<string>, b: seq<string>)
    requires Sorted(a) && Sorted(b)
    requires multiset(a) == multiset(b)
    ensures a == b
    decreases |a|
  {
    if |a| > 0 {
      assert |b| == |multiset(b)| == |multiset(a)| == |a|;
      HeadIsLeast(b, a[0]);
      HeadIsLeast(a, b[0]);
      LeAntisymmetric(a[0], b[0]);
      TailMultiset(a);
      TailMultiset(b);
      SortedUnique(a[1..], b[1..]);
      assert a == [a[0]] + a[1..] && b == [b[0]] + b[1..];
    }
  }

  /* The head of a sorted list sorts no later than any of its elements. */
  lemma HeadIsLeast(s: seq<string>, x: string)
    requires Sorted(s) && x in multiset(s)
    ensures Le(s[0], x)
  {
    var i :| 0 <= i < |s| && s[i] == x;
    if i == 0 { LeReflexive(x); }
  }

  lemma TailMultiset(s: seq<string>)
    requires |s| > 0
    ensures multiset(s[1..]) == multiset(s) - multiset{s[0]}
  {
    assert s == [s[0]] + s[1..];
  }

  /** Sorting two lists gives the same result exactly when they are
      permutations of each other. */
  lemma SortPermutation(a: seq<string>, b: seq<string>)
    ensures Sort(a) == Sort(b) <==> multiset(a) == multiset(b)
  {
    if multiset(a) == multiset(b) {
      SortedUnique(Sort(a), Sort(b));
    }
  }

  /** The sorted list `s` without repeated elements. */
  function Dedup(s: seq<string>): (r: seq<string>)
    requires Sorted(s)
    ensures StrictlySorted(r)
    ensures forall x :: x in r <==> x in s
    decreases |s|
  {
    if |s| <= 1 then s
    else if s[0] == s[1] then Dedup(s[1..])
    else
      var t := Dedup(s[1..]);
      HeadBelowRest(s, t);
      [s[0]] + t
  }

  /* The head of a sorted list, differing from its second element, is
     strictly below every other element. */
  lemma HeadBelowRest(s: seq<string>, t: seq<string>)
    requires Sorted(s) && |s| >= 2 && s[0] != s[1]
    requires StrictlySorted(t)
    requires forall x :: x in t ==> x in s[1..]
    ensures StrictlySorted([s[0]] + t)
  {
    forall j | 0 <= j < |t| ensures Le(s[0], t[j]) && s[0] != t[j] {
      assert t[j] in s[1..];
      var k' :| 0 <= k' < |s| - 1 && s[1..][k'] == t[j];
      var k := k' + 1;
      if s[0] == t[j] {
        if k > 1 { } else { LeReflexive(s[1]); }
        assert Le(s[1], s[0]);
        LeAntisymmetric(s[0], s[1]);
      }
    }
  }

  /** A strictly sorted list holds as many elements as the set of its
      elements. */
  lemma {:induction false} StrictlySortedCard(s: seq<string>)
    requires StrictlySorted(s)
    ensures |set x | x in s| == |s|
    decreases |s|
  {
    if |s| > 0 {
      StrictlySortedCard(s[1..]);
      assert (set x | x in s) == {s[0]} + (set x | x in s[1..]);
      assert s[0] !in (set x | x in s[1..]);
    }
  }

  /** A strictly sorted list is determined by the set of its elements. */
  lemma StrictlySortedUnique(a: seq<string>, b: seq<string>)
    requires StrictlySorted(a) && StrictlySorted(b)
    requires forall x :: x in a <==> x in b
    ensures a == b
  {
    forall x ensures multiset(a)[x] == multiset(b)[x] {
      DistinctCount(a, x);
      DistinctCount(b, x);
    }
    assert multiset(a) == multiset(b);
    SortedUnique(a, b);
  }

  lemma {:induction false} DistinctCount(s: seq<string>, x: string)
    requires StrictlySorted(s)
    ensures multiset(s)[x] == if x in s then 1 else 0
    decreases |s|
  {
    if |s| > 0 {
      DistinctCount(s[1..], x);
      assert s == [s[0]] + s[1..];
      assert s[0] !in s[1..];
    }
  }
}

=== FILE: output.dfy ===
/**
 The dictionary builder (`Output` in internal/ent/output.go).

 The `word,count` lines of the uninomial, genus and species tables are
 filtered and split into a white tier (trusted) and a grey tier (short or
 common words). Words whose lower-cased form is on a blacklist and
 malformed words are dropped from the tiers. Grey genera
 are expanded into the genus-epithet combinations of their canonical
 forms, and the reference word lists are dumped in sorted order. A file's
 content is its lines joined by line breaks, trimmed.
 */
module Output {
  import opened Text
  import opened Order
  import opened WordLists

  /* ---------------------------------------------------------------- */
  /* Lines                                                            */
  /* ---------------------------------------------------------------- */

  /** The word of a `word,count` line: everything before the first comma. */
  function Name(line: string): string
  {
    Before(line, ',')
  }

  /** The decimal digits of `n` (Go's `strconv.Itoa`). */
  function Decimal(n: nat): (r: string)
    ensures |r| >= 1
    ensures forall i :: 0 <= i < |r| ==> IsDigit(r[i])
  {
    var digit := ('0' as int + n % 10) as char;
    if n < 10 then [digit] else Decimal(n / 10) + [digit]
  }

  /** A table row as the classification stage writes it, for a word
      without commas or quotes. */
  function Row(w: string, n: nat): string
  {
    w + "," + Decimal(n)
  }

  /** Reading the word back from a row gives the word. */
  lemma RowName(w: string, n: nat)
    requires ',' !in w
    ensures Name(Row(w, n)) == w
  {
    var line := Row(w, n);
    var r := Name(line);
    assert line[..|w|] == w && line[|w|] == ',';
  }

  /* ---------------------------------------------------------------- */
  /* Word tests                                                       */
  /* ---------------------------------------------------------------- */

  /** `uninomialProblems`: the lower-cased word is on the uninomial
      blacklist or contains a period. */
  predicate UninomialProblems(d: Data, w: string)
  {
    var low := ToLower(w);
    low in d.uniBlack || '.' in low
  }

  /** `speciesProblems`: the lower-cased word is on the species blacklist,
      is shorter than two bytes, or contains a period or a digit. */
  predicate SpeciesProblems(d: Data, w: string)
  {
    ToLower(w) in d.spBlack || ByteLen(w) < 2 || '.' in w || HasDigit(w)
  }

  /** `isGreyWord`: shorter than four bytes, or a common word once
      lower-cased. */
  predicate IsGreyWord(d: Data, w: string)
  {
    ByteLen(w) < 4 || ToLower(w) in d.common
  }

  lemma LowerKeepsByteLen(s: string)
    ensures ByteLen(ToLower(s)) == ByteLen(s)
    decreases |s|
  {
    if |s| > 0 {
      LowerKeepsByteLen(s[1..]);
      assert ToLower(s)[1..] == ToLower(s[1..]);
    }
  }

  lemma LowerKeepsDigits(s: string)
    ensures HasDigit(ToLower(s)) <==> HasDigit(s)
  {
    if HasDigit(s) {
      var i :| 0 <= i < |s| && IsDigit(s[i]);
      assert IsDigit(ToLower(s)[i]);
    }
    if HasDigit(ToLower(s)) {
      var i :| 0 <= i < |s| && IsDigit(ToLower(s)[i]);
      assert IsDigit(s[i]);
    }
  }

  /** The word tests ignore case: a word is treated exactly as its
      lower-cased form. */
  lemma TestsIgnoreCase(d: Data, w: string)
    ensures UninomialProblems(d, w) <==> UninomialProblems(d, ToLower(w))
    ensures SpeciesProblems(d, w) <==> SpeciesProblems(d, ToLower(w))
    ensures IsGreyWord(d, w) <==> IsGreyWord(d, ToLower(w))
  {
    ToLowerProperties(w);
    LowerKeepsByteLen(w);
    LowerKeepsDigits(w);
  }

  /** A word is rejected as a uninomial exactly when its lower-cased form
      is blacklisted or it contains a period: looking for the period in
      the lower-cased word is looking for it in the word. */
  lemma UninomialProblemsRule(d: Data, w: string)
    ensures UninomialProblems(d, w) <==> ToLower(w) in d.uniBlack || '.' in w
  {
    ToLowerProperties(w);
  }

  /** The blacklists are searched for the lower-cased word, but their
      entries keep the case they were written in: an entry whose
      lower-cased form is not itself listed never matches. Its own row, a
      word literally on the uninomial blacklist, is kept in a tier. */
  lemma CapitalisedEntryKept(d: Data, w: string, k: nat)
    requires w in d.uniBlack && ToLower(w) !in d.uniBlack
    requires '.' !in w && ',' !in w
    ensures TierOf(d, Uninomials, Row(w, k)) != Dropped
  {
    RowName(w, k);
    UninomialProblemsRule(d, w);
  }

  /** The species length test counts bytes, not letters: a word that is
      not blacklisted and has no period or digit is rejected exactly when
      it is empty or a single ASCII character. Two-letter words and a lone
      non-ASCII letter pass. */
  lemma SpeciesLengthRule(d: Data, w: string)
    requires ToLower(w) !in d.spBlack && '.' !in w && !HasDigit(w)
    ensures SpeciesProblems(d, w) <==> |w| == 0 || (|w| == 1 && w[0] as int < 0x80)
  {
    ByteLenBelowTwo(w);
  }

  /** The grey length test counts bytes: a word grey by length has fewer
      than four characters, and for ASCII words the test is exactly "fewer
      than four letters"; a word of two accented letters is four bytes long
      and is not grey by length. */
  lemma GreyLengthRule(d: Data, w: string)
    ensures ToLower(w) !in d.common ==> (IsGreyWord(d, w) ==> |w| < 4)
    ensures IsAscii(w) && ToLower(w) !in d.common ==> (IsGreyWord(d, w) <==> |w| < 4)
  {
  }

  /* ---------------------------------------------------------------- */
  /* White and grey tiers                                             */
  /* ---------------------------------------------------------------- */

  /** Which table a list of lines comes from. Genera use the uninomial
      tests. */
  datatype Kind = Uninomials | Genera | Species

  predicate Rejected(d: Data, kind: Kind, w: string)
  {
    match kind
    case Species => SpeciesProblems(d, w)
    case _ => UninomialProblems(d, w)
  }

  /** Where a line goes: nowhere, to the white tier or to the grey tier. */
  datatype Tier = Dropped | White | Grey

  function TierOf(d: Data, kind: Kind, line: string): Tier
  {
    var name := Name(line);
    if Rejected(d, kind, name) then Dropped
    else if IsGreyWord(d, name) then Grey
    else White
  }

  predicate InWhite(d: Data, kind: Kind, line: string)
  {
    TierOf(d, kind, line) == White
  }

  predicate InGrey(d: Data, kind: Kind, line: string)
  {
    TierOf(d, kind, line) == Grey
  }

  /** The partition loop of `uninomials`, `genera` and `species`: every
      line whose word passes the table's tests goes, as often as it
      occurs, to exactly one of the two tiers, grey when the word is grey;
      rejected lines go nowhere; both tiers come out sorted. */
  method Partition(d: Data, kind: Kind, lines: seq<string>) returns (white: seq<string>, grey: seq<string>)
    ensures Sorted(white) && Sorted(grey)
    ensures forall l :: multiset(white)[l] == if InWhite(d, kind, l) then multiset(lines)[l] else 0
    ensures forall l :: multiset(grey)[l] == if InGrey(d, kind, l) then multiset(lines)[l] else 0
    ensures forall l :: l in white ==> !Rejected(d, kind, Name(l)) && !IsGreyWord(d, Name(l))
    ensures forall l :: l in grey ==> !Rejected(d, kind, Name(l)) && IsGreyWord(d, Name(l))
    ensures forall l :: l in lines ==> (l in white || l in grey <==> !Rejected(d, kind, Name(l)))
  {
    var w, g := SelectTiers(d, kind, lines);
    white := Sort(w);
    grey := Sort(g);
    TierMembership(d, kind, lines, white, grey);
  }

  /** The lines that `tierOf` puts into `tier`, in corpus order. */
  function Select(tierOf: string -> Tier, lines: seq<string>, tier: Tier): seq<string>
    decreases |lines|
  {
    if |lines| == 0 then []
    else
      var v := lines[|lines| - 1];
      Select(tierOf, lines[..|lines| - 1], tier) + (if tierOf(v) == tier then [v] else [])
  }

  /** A tier holds each line that belongs to it exactly as often as the
      corpus does, and no other line. */
  lemma {:induction false} SelectCounts(tierOf: string -> Tier, lines: seq<string>, tier: Tier, l: string)
    ensures multiset(Select(tierOf, lines, tier))[l] == if tierOf(l) == tier then multiset(lines)[l] else 0
    decreases |lines|
  {
    if |lines| > 0 {
      var init := lines[..|lines| - 1];
      var v := lines[|lines| - 1];
      SelectCounts(tierOf, init, tier, l);
      assert lines == init + [v];
      assert multiset(lines) == multiset(init) + multiset{v};
      var add := if tierOf(v) == tier then [v] else [];
      assert multiset(Select(tierOf, lines, tier)) == multiset(Select(tierOf, init, tier)) + multiset(add);
    }
  }

  /** The loop itself, before sorting: the tiers in corpus order. */
  method SelectTiers(d: Data, kind: Kind, lines: seq<string>) returns (white: seq<string>, grey: seq<string>)
    ensures forall l :: multiset(white)[l] == if InWhite(d, kind, l) then multiset(lines)[l] else 0
    ensures forall l :: multiset(grey)[l] == if InGrey(d, kind, l) then multiset(lines)[l] else 0
  {
    var tierOf := (l: string) => TierOf(d, kind, l);
    white, grey := [], [];
    var i := 0;
    while i < |lines|
      invariant 0 <= i <= |lines|
      invariant white == Select(tierOf, lines[..i], White)
      invariant grey == Select(tierOf, lines[..i], Grey)
    {
      var v := lines[i];
      assert lines[..i + 1][..i] == lines[..i];
      var t := tierOf(v);
      if t == Grey {
        grey := grey + [v];
      } else if t == White {
        white := white + [v];
      }
      i := i + 1;
    }
    assert lines[..|lines|] == lines;
    forall l ensures multiset(white)[l] == if InWhite(d, kind, l) then multiset(lines)[l] else 0 {
      SelectCounts(tierOf, lines, White, l);
    }
    forall l ensures multiset(grey)[l] == if InGrey(d, kind, l) then multiset(lines)[l] else 0 {
      SelectCounts(tierOf, lines, Grey, l);
    }
  }

  /* Membership in the tiers read off their multiplicities. */
  lemma TierMembership(d: Data, kind: Kind, lines: seq<string>, white: seq<string>, grey: seq<string>)
    requires forall l :: multiset(white)[l] == if InWhite(d, kind, l) then multiset(lines)[l] else 0
    requires forall l :: multiset(grey)[l] == if InGrey(d, kind, l) then multiset(lines)[l] else 0
    ensures forall l :: l in white ==> !Rejected(d, kind, Name(l)) && !IsGreyWord(d, Name(l))
    ensures forall l :: l in grey ==> !Rejected(d, kind, Name(l)) && IsGreyWord(d, Name(l))
    ensures forall l :: l in lines ==> (l in white || l in grey <==> !Rejected(d, kind, Name(l)))
  {
    forall l | l in white ensures InWhite(d, kind, l) {
      assert multiset(white)[l] > 0;
    }
    forall l | l in grey ensures InGrey(d, kind, l) {
      assert multiset(grey)[l] > 0;
    }
    forall l | l in lines ensures l in white || l in grey <==> !Rejected(d, kind, Name(l)) {
      assert multiset(lines)[l] > 0;
      if !Rejected(d, kind, Name(l)) {
        if IsGreyWord(d, Name(l)) {
          assert multiset(grey)[l] > 0;
        } else {
          assert multiset(white)[l] > 0;
        }
      }
    }
  }

  /* ---------------------------------------------------------------- */
  /* Grey genera and their species                                    */
  /* ---------------------------------------------------------------- */

  /** `nameCombos`: the whole name, and for three words or more also the
      genus with the first and with the second epithet. */
  function NameCombos(ws: seq<string>): seq<string>
  {
    var name := Join(ws, ' ');
    if |ws| < 3 then [name]
    else [name, ws[0] + " " + ws[1], ws[0] + " " + ws[2]]
  }

  /** For the words of a canonical form (two or more words, none with a
      space), the combinations are exactly the names whose words are the
      whole form or, for three words or more, the genus with its first or
      with its second epithet. */
  lemma NameCombosWords(ws: seq<string>, n: string)
    requires |ws| >= 2
    requires forall i :: 0 <= i < |ws| ==> ' ' !in ws[i]
    ensures n in NameCombos(ws) <==>
              var p := Split(n, ' ');
              p == ws || (|ws| >= 3 && (p == [ws[0], ws[1]] || p == [ws[0], ws[2]]))
  {
    SplitJoin(ws, ' ');
    JoinSplit(n, ' ');
    if |ws| >= 3 {
      JoinTwo(ws[0], ws[1]);
      JoinTwo(ws[0], ws[2]);
      SplitJoin([ws[0], ws[1]], ' ');
      SplitJoin([ws[0], ws[2]], ' ');
    }
  }

  /** The genus names of the grey genus lines. */
  function GreyNames(grey: seq<string>): set<string>
  {
    set l | l in grey :: Name(l)
  }

  /** A canonical form is expanded when it has two or more words and its
      first word is one of `genera`. */
  predicate Expands(genera: set<string>, c: string)
  {
    var ws := Split(c, ' ');
    |ws| >= 2 && ws[0] in genera
  }

  /** The combinations of the expanded canonical forms, in corpus order,
      repetitions included. */
  function Combos(genera: set<string>, canonicals: seq<string>): seq<string>
    decreases |canonicals|
  {
    if |canonicals| == 0 then []
    else
      (if Expands(genera, canonicals[0]) then NameCombos(Split(canonicals[0], ' ')) else [])
      + Combos(genera, canonicals[1..])
  }

  lemma {:induction false} CombosMembers(genera: set<string>, canonicals: seq<string>, n: string)
    ensures n in Combos(genera, canonicals) <==>
            exists c :: c in canonicals && Expands(genera, c) && n in NameCombos(Split(c, ' '))
    decreases |canonicals|
  {
    if |canonicals| > 0 {
      CombosMembers(genera, canonicals[1..], n);
      var c0 := canonicals[0];
      if exists c :: c in canonicals && Expands(genera, c) && n in NameCombos(Split(c, ' ')) {
        var c :| c in canonicals && Expands(genera, c) && n in NameCombos(Split(c, ' '));
        if c != c0 {
          assert c in canonicals[1..];
        }
      }
    }
  }

  /** `greySpecies`: every combination of every canonical form of two or
      more words whose genus is a grey genus, once each and sorted; other
      canonical forms contribute nothing. */
  function GreySpecies(grey: seq<string>, canonicals: seq<string>): (r: seq<string>)
    ensures StrictlySorted(r)
    ensures forall n :: n in r <==>
              exists c :: c in canonicals && Expands(GreyNames(grey), c) && n in NameCombos(Split(c, ' '))
  {
    var all := Combos(GreyNames(grey), canonicals);
    var sorted := Sort(all);
    assert forall n :: n in sorted <==> n in all by {
      forall n ensures n in sorted <==> n in all {
        assert n in sorted <==> n in multiset(sorted);
        assert n in all <==> n in multiset(all);
      }
    }
    forall n ensures n in all <==>
              exists c :: c in canonicals && Expands(GreyNames(grey), c) && n in NameCombos(Split(c, ' '))
    {
      CombosMembers(GreyNames(grey), canonicals, n);
    }
    Dedup(sorted)
  }

  /** Every grey species entry begins with a grey genus and has at least
      two words. */
  lemma GreySpeciesGenus(grey: seq<string>, canonicals: seq<string>, n: string)
    requires n in GreySpecies(grey, canonicals)
    ensures var p := Split(n, ' ');
            |p| >= 2 && p[0] in GreyNames(grey)
  {
    var c :| c in canonicals && Expands(GreyNames(grey), c) && n in NameCombos(Split(c, ' '));
    NameCombosWords(Split(c, ' '), n);
  }

  lemma ExampleGreyNames(g: string, n: nat)
    requires ',' !in g
    ensures GreyNames([Row(g, n)]) == {g}
  {
    RowName(g, n);
    var grey := [Row(g, n)];
    assert forall l :: l in grey ==> l == Row(g, n);
  }

  /* The combinations of the example's canonical forms. */
  lemma ExampleExpansion(g: string, a: string, b: string, x: string)
    requires Word(g) && Word(a) && Word(b)
    ensures (exists c :: c in [g + " " + a + " " + b, g + " " + a] && Expands({g}, c) && x in NameCombos(Split(c, ' ')))
            <==> x == g + " " + a || x == g + " " + a + " " + b || x == g + " " + b
  {
    var canonicals := [g + " " + a + " " + b, g + " " + a];
    SplitTwo(g, a);
    SplitThree(g, a, b);
    JoinTwo(g, a);
    JoinThree(g, a, b);
    if x == g + " " + a || x == g + " " + a + " " + b || x == g + " " + b {
      assert canonicals[0] in canonicals && Expands({g}, canonicals[0]);
      assert x in NameCombos(Split(canonicals[0], ' '));
    }
    if exists c :: c in canonicals && Expands({g}, c) && x in NameCombos(Split(c, ' ')) {
      var c :| c in canonicals && Expands({g}, c) && x in NameCombos(Split(c, ' '));
      assert c == canonicals[0] || c == canonicals[1];
    }
  }

  /** The worked example, for a grey genus `g` (a row `g,n`) and the
      canonical forms "g a b" and "g a": the grey species are exactly
      "g a", "g a b" and "g b"; "g a" comes from both forms and is listed
      once. */
  lemma GreyExample(g: string, n: nat, a: string, b: string)
    requires Word(g) && Word(a) && Word(b) && ',' !in g
    ensures forall x :: x in GreySpecies([Row(g, n)], [g + " " + a + " " + b, g + " " + a])
                        <==> x == g + " " + a || x == g + " " + a + " " + b || x == g + " " + b
  {
    ExampleGreyNames(g, n);
    forall x ensures x in GreySpecies([Row(g, n)], [g + " " + a + " " + b, g + " " + a])
                     <==> x == g + " " + a || x == g + " " + a + " " + b || x == g + " " + b
    {
      ExampleExpansion(g, a, b, x);
    }
  }

  /** The grey genus-species file is not filtered by the species tests:
      the two-word canonical form "g e" of a grey genus g is listed
      whatever its epithet, even one that has a period or is on the species
      blacklist, whose own row the species tiers drop. */
  lemma GreySpeciesUnfiltered(d: Data, g: string, n: nat, e: string, k: nat)
    requires Word(g) && Word(e) && ',' !in g && ',' !in e
    ensures g + " " + e in GreySpecies([Row(g, n)], [g + " " + e])
    ensures '.' in e || ToLower(e) in d.spBlack ==> TierOf(d, Species, Row(e, k)) == Dropped
  {
    ExampleGreyNames(g, n);
    SplitTwo(g, e);
    JoinTwo(g, e);
    RowName(e, k);
    assert g + " " + e in NameCombos(Split(g + " " + e, ' '));
  }

  /* ---------------------------------------------------------------- */
  /* Reference lists                                                  */
  /* ---------------------------------------------------------------- */

  lemma RepeatCount(r: seq<string>, i: int, j: int)
    requires 0 <= i < j < |r| && r[i] == r[j]
    ensures multiset(r)[r[i]] >= 2
  {
    assert r == r[..j] + r[j..];
    assert r[i] in r[..j];
    assert r[j] in r[j..];
    assert multiset(r) == multiset(r[..j]) + multiset(r[j..]);
  }

  /** The members of a word list, each once, sorted (one list of
      `fromData`): as many entries as the set has members. */
  method SortedMembers(s: set<string>) returns (r: seq<string>)
    ensures StrictlySorted(r)
    ensures forall x :: x in r <==> x in s
    ensures |r| == |s|
  {
    var acc: seq<string> := [];
    var rest := s;
    while rest != {}
      invariant rest <= s
      invariant forall x :: multiset(acc)[x] == if x in s && x !in rest then 1 else 0
      invariant |acc| + |rest| == |s|
      decreases |rest|
    {
      var x :| x in rest;
      acc := acc + [x];
      rest := rest - {x};
    }
    r := Sort(acc);
    forall i, j | 0 <= i < j < |r| ensures r[i] != r[j] {
      if r[i] == r[j] {
        RepeatCount(r, i, j);
      }
    }
    forall x ensures x in r <==> x in s {
      assert x in r <==> x in multiset(r);
    }
  }

  /** The three sorted dumps of `fromData`. */
  datatype Dumps = Dumps(common: seq<string>, spBlack: seq<string>, uniBlack: seq<string>)

  /** `fromData`: the common words, the species blacklist and the
      uninomial blacklist, each listed once per member in sorted order. */
  method FromData(d: Data) returns (dumps: Dumps)
    ensures StrictlySorted(dumps.common) && forall x :: x in dumps.common <==> x in d.common
    ensures StrictlySorted(dumps.spBlack) && forall x :: x in dumps.spBlack <==> x in d.spBlack
    ensures StrictlySorted(dumps.uniBlack) && forall x :: x in dumps.uniBlack <==> x in d.uniBlack
    ensures |dumps.common| == |d.common| && |dumps.spBlack| == |d.spBlack| && |dumps.uniBlack| == |d.uniBlack|
  {
    var com := SortedMembers(d.common);
    var blkSp := SortedMembers(d.spBlack);
    var blkUni := SortedMembers(d.uniBlack);
    dumps := Dumps(com, blkSp, blkUni);
  }

  /* ---------------------------------------------------------------- */
  /* File contents                                                    */
  /* ---------------------------------------------------------------- */

  /** What `saveStrings` writes: the lines joined by line breaks, with
      the white space at both ends trimmed. */
  function Content(data: seq<string>): (r: string)
    ensures Trimmed(r)
  {
    TrimSpace(Join(data, '\n'))
  }

  lemma JoinFirst(ws: seq<string>, sep: char)
    requires |ws| >= 1 && |ws[0]| > 0
    ensures var j := Join(ws, sep); |j| > 0 && j[0] == ws[0][0]
  {
  }

  lemma {:induction false} JoinLast(ws: seq<string>, sep: char)
    requires |ws| >= 1 && |ws[|ws| - 1]| > 0
    ensures var j := Join(ws, sep); |j| > 0 && j[|j| - 1] == ws[|ws| - 1][|ws[|ws| - 1]| - 1]
    decreases |ws|
  {
    if |ws| > 1 {
      JoinLast(ws[1..], sep);
    }
  }

  /** Trimming only removes blank lines and white space at the very ends:
      when the first line does not start and the last line does not end
      with white space, and no line holds a line break, the file reads back
      as exactly the lines that were written. */
  lemma ContentReadsBack(data: seq<string>)
    requires |data| >= 1
    requires forall i :: 0 <= i < |data| ==> '\n' !in data[i]
    requires |data[0]| > 0 && !IsSpace(data[0][0])
    requires |data[|data| - 1]| > 0 && !IsSpace(data[|data| - 1][|data[|data| - 1]| - 1])
    ensures Split(Content(data), '\n') == data
  {
    JoinFirst(data, '\n');
    JoinLast(data, '\n');
    TrimSpaceTrimmed(Join(data, '\n'));
    SplitJoin(data, '\n');
  }

  /* ---------------------------------------------------------------- */
  /* The whole builder                                                */
  /* ---------------------------------------------------------------- */

  /** The lines of every file of the dictionary. */
  datatype Dict = Dict(
    inUninomials: seq<string>,
    inGenera: seq<string>,
    inSpecies: seq<string>,
    ambigUninomials: seq<string>,
    ambigGenera: seq<string>,
    ambigSpecies: seq<string>,
    ambigGeneraSpecies: seq<string>,
    notInSpecies: seq<string>,
    notInUninomials: seq<string>,
    commonWords: seq<string>)

  /** The word of every line passes the uninomial tests: not on the
      uninomial blacklist once lower-cased, and without a period. */
  predicate UniClean(d: Data, lines: seq<string>)
  {
    forall l :: l in lines ==> ToLower(Name(l)) !in d.uniBlack && '.' !in Name(l)
  }

  /** The word of every line passes the species tests: not on the species
      blacklist once lower-cased, at least two bytes long, and without a
      period or a digit. */
  predicate SpClean(d: Data, lines: seq<string>)
  {
    forall l :: l in lines ==>
      ToLower(Name(l)) !in d.spBlack && ByteLen(Name(l)) >= 2 && '.' !in Name(l) && !HasDigit(Name(l))
  }

  /** `tier` holds every line of `lines` that goes to tier `t`, as often
      as `lines` does, and no other line. */
  ghost predicate TierLines(d: Data, kind: Kind, lines: seq<string>, t: Tier, tier: seq<string>)
  {
    forall l :: multiset(tier)[l] == if TierOf(d, kind, l) == t then multiset(lines)[l] else 0
  }

  predicate NoneGrey(d: Data, lines: seq<string>)
  {
    forall l :: l in lines ==> !IsGreyWord(d, Name(l))
  }

  predicate AllGrey(d: Data, lines: seq<string>)
  {
    forall l :: l in lines ==> IsGreyWord(d, Name(l))
  }

  /* The tiers of an uninomial or genus partition pass the uninomial
     tests. */
  lemma TiersUniClean(d: Data, kind: Kind, tier: seq<string>)
    requires kind != Species
    requires forall l :: l in tier ==> !Rejected(d, kind, Name(l))
    ensures UniClean(d, tier)
  {
    forall l | l in tier ensures ToLower(Name(l)) !in d.uniBlack && '.' !in Name(l) {
      UninomialProblemsRule(d, Name(l));
    }
  }

  /** A sorted tier holding exactly the lines of `lines` that go to tier
      `t`, with their multiplicities. */
  ghost predicate SortedTier(d: Data, kind: Kind, lines: seq<string>, t: Tier, tier: seq<string>)
  {
    Sorted(tier) && TierLines(d, kind, lines, t, tier)
  }

  /** The members of `s`, once each, in increasing order. */
  ghost predicate Dump(s: set<string>, dump: seq<string>)
  {
    StrictlySorted(dump) && forall x :: x in dump <==> x in s
  }

  /** What the dictionary built from the reference lists and the tables
      holds: the six sorted tiers, the grey species of the grey genera and
      the three sorted dumps. */
  ghost predicate Built(d: Data, uniLines: seq<string>, genLines: seq<string>, spLines: seq<string>,
                        canonicals: seq<string>, dict: Dict)
  {
    && SortedTier(d, Uninomials, uniLines, White, dict.inUninomials)
    && SortedTier(d, Uninomials, uniLines, Grey, dict.ambigUninomials)
    && SortedTier(d, Genera, genLines, White, dict.inGenera)
    && SortedTier(d, Genera, genLines, Grey, dict.ambigGenera)
    && SortedTier(d, Species, spLines, White, dict.inSpecies)
    && SortedTier(d, Species, spLines, Grey, dict.ambigSpecies)
    && dict.ambigGeneraSpecies == GreySpecies(dict.ambigGenera, canonicals)
    && Dump(d.spBlack, dict.notInSpecies)
    && Dump(d.uniBlack, dict.notInUninomials)
    && Dump(d.common, dict.commonWords)
  }

  /* Two sorted tiers of the same lines are the same list. */
  lemma SortedTierUnique(d: Data, kind: Kind, lines: seq<string>, t: Tier, a: seq<string>, b: seq<string>)
    requires SortedTier(d, kind, lines, t, a) && SortedTier(d, kind, lines, t, b)
    ensures a == b
  {
    assert multiset(a) == multiset(b) by {
      forall l ensures multiset(a)[l] == multiset(b)[l] {
      }
    }
    SortedUnique(a, b);
  }

  /** The dictionary does not depend on the order in which the code visits
      map keys or appends lines: the same reference lists and tables give
      the same dictionary, and so the same files. */
  lemma BuiltUnique(d: Data, uniLines: seq<string>, genLines: seq<string>, spLines: seq<string>,
                    canonicals: seq<string>, a: Dict, b: Dict)
    requires Built(d, uniLines, genLines, spLines, canonicals, a)
    requires Built(d, uniLines, genLines, spLines, canonicals, b)
    ensures a == b
    ensures Files(a) == Files(b)
  {
    SortedTierUnique(d, Uninomials, uniLines, White, a.inUninomials, b.inUninomials);
    SortedTierUnique(d, Uninomials, uniLines, Grey, a.ambigUninomials, b.ambigUninomials);
    SortedTierUnique(d, Genera, genLines, White, a.inGenera, b.inGenera);
    SortedTierUnique(d, Genera, genLines, Grey, a.ambigGenera, b.ambigGenera);
    SortedTierUnique(d, Species, spLines, White, a.inSpecies, b.inSpecies);
    SortedTierUnique(d, Species, spLines, Grey, a.ambigSpecies, b.ambigSpecies);
    StrictlySortedUnique(a.notInSpecies, b.notInSpecies);
    StrictlySortedUnique(a.notInUninomials, b.notInUninomials);
    StrictlySortedUnique(a.commonWords, b.commonWords);
  }

  /* Tiers of lines with the same multiplicities are the same tiers. */
  lemma TierPerm(d: Data, kind: Kind, lines1: seq<string>, lines2: seq<string>, t: Tier, tier: seq<string>)
    requires multiset(lines1) == multiset(lines2)
    requires SortedTier(d, kind, lines1, t, tier)
    ensures SortedTier(d, kind, lines2, t, tier)
  {
  }

  /** The dictionary does not depend on the order of its inputs either:
      table lines given in any order, with the same multiplicities, and
      canonical forms given in any order, with the same members, give the
      same dictionary and the same files. This covers the map order in
      which the classification stage writes its cache files. */
  lemma BuiltIgnoresInputOrder(d: Data,
                               uni1: seq<string>, gen1: seq<string>, sp1: seq<string>, can1: seq<string>,
                               uni2: seq<string>, gen2: seq<string>, sp2: seq<string>, can2: seq<string>,
                               a: Dict, b: Dict)
    requires multiset(uni1) == multiset(uni2) && multiset(gen1) == multiset(gen2) && multiset(sp1) == multiset(sp2)
    requires forall c :: c in can1 <==> c in can2
    requires Built(d, uni1, gen1, sp1, can1, a)
    requires Built(d, uni2, gen2, sp2, can2, b)
    ensures a == b
    ensures Files(a) == Files(b)
  {
    TierPerm(d, Uninomials, uni1, uni2, White, a.inUninomials);
    TierPerm(d, Uninomials, uni1, uni2, Grey, a.ambigUninomials);
    TierPerm(d, Genera, gen1, gen2, White, a.inGenera);
    TierPerm(d, Genera, gen1, gen2, Grey, a.ambigGenera);
    TierPerm(d, Species, sp1, sp2, White, a.inSpecies);
    TierPerm(d, Species, sp1, sp2, Grey, a.ambigSpecies);
    SortedTierUnique(d, Genera, gen2, Grey, a.ambigGenera, b.ambigGenera);
    StrictlySortedUnique(GreySpecies(a.ambigGenera, can1), GreySpecies(a.ambigGenera, can2));
    var a2 := a.(ambigGeneraSpecies := GreySpecies(a.ambigGenera, can2));
    assert a2 == a;
    BuiltUnique(d, uni2, gen2, sp2, can2, a, b);
  }

  /** `Create`: the three partitions, the grey-genus expansion and the
      reference dumps. In the six tier files no word whose lower-cased
      form is on the blacklist appears, white files hold no grey word,
      grey files only grey words, and every word that passes its tests is
      kept; `in-ambig/genera_species.csv` applies no word test. The
      `not-in` files list the blacklists. */
  method Create(d: Data, uniLines: seq<string>, genLines: seq<string>, spLines: seq<string>,
                canonicals: seq<string>) returns (dict: Dict)
    ensures Built(d, uniLines, genLines, spLines, canonicals, dict)
    ensures UniClean(d, dict.inUninomials) && UniClean(d, dict.ambigUninomials)
    ensures UniClean(d, dict.inGenera) && UniClean(d, dict.ambigGenera)
    ensures SpClean(d, dict.inSpecies) && SpClean(d, dict.ambigSpecies)
    ensures NoneGrey(d, dict.inUninomials) && NoneGrey(d, dict.inGenera) && NoneGrey(d, dict.inSpecies)
    ensures AllGrey(d, dict.ambigUninomials) && AllGrey(d, dict.ambigGenera) && AllGrey(d, dict.ambigSpecies)
    ensures forall l :: l in uniLines && !UninomialProblems(d, Name(l)) ==> l in dict.inUninomials || l in dict.ambigUninomials
    ensures forall l :: l in genLines && !UninomialProblems(d, Name(l)) ==> l in dict.inGenera || l in dict.ambigGenera
    ensures forall l :: l in spLines && !SpeciesProblems(d, Name(l)) ==> l in dict.inSpecies || l in dict.ambigSpecies
  {
    var whiteUni, greyUni := Partition(d, Uninomials, uniLines);
    TiersUniClean(d, Uninomials, whiteUni);
    TiersUniClean(d, Uninomials, greyUni);
    var whiteGen, greyGen := Partition(d, Genera, genLines);
    TiersUniClean(d, Genera, whiteGen);
    TiersUniClean(d, Genera, greyGen);
    var greySp := GreySpecies(greyGen, canonicals);
    var whiteSp, greySpecies := Partition(d, Species, spLines);
    var dumps := FromData(d);
    dict := Dict(whiteUni, whiteGen, whiteSp, greyUni, greyGen, greySpecies, greySp,
                 dumps.spBlack, dumps.uniBlack, dumps.common);
  }

  /** One written file: its path below the dictionary directory and its
      content. */
  datatype File = File(path: string, content: string)

  /** `saveStrings(path, data)`. */
  function Save(path: string, data: seq<string>): (f: File)
    ensures f.path == path && Trimmed(f.content)
  {
    File(path, Content(data))
  }

  /** The paths below the dictionary directory, in the order `Create`
      writes them, matching the fields of `Lists`. */
  const Paths: seq<string> := [
    "in/uninomials.csv", "in-ambig/uninomials.csv",
    "in/genera.csv", "in-ambig/genera.csv", "in-ambig/genera_species.csv",
    "in/species.csv", "in-ambig/species.csv",
    "common/eu.csv", "not-in/species.csv", "not-in/uninomials.csv"]

  function Lists(dict: Dict): seq<seq<string>>
  {
    [ dict.inUninomials, dict.ambigUninomials,
      dict.inGenera, dict.ambigGenera, dict.ambigGeneraSpecies,
      dict.inSpecies, dict.ambigSpecies,
      dict.commonWords, dict.notInSpecies, dict.notInUninomials ]
  }

  /** The file tree below the dictionary directory: each path holds the
      content of its lines, so no file starts or ends with white space. */
  function Files(dict: Dict): (files: seq<File>)
    ensures |files| == |Paths|
    ensures forall i :: 0 <= i < |files| ==> files[i].path == Paths[i] && Trimmed(files[i].content)
  {
    var lists := Lists(dict);
    seq(|Paths|, i requires 0 <= i < |Paths| => Save(Paths[i], lists[i]))
  }

  /** A file reads back as the lines it was written from when its lines
      hold no line break and its first and last characters are not white
      space. */
  lemma FileReadsBack(dict: Dict, i: int)
    requires 0 <= i < |Paths|
    requires var data := Lists(dict)[i];
             && |data| >= 1
             && (forall k :: 0 <= k < |data| ==> '\n' !in data[k])
             && |data[0]| > 0 && !IsSpace(data[0][0])
             && |data[|data| - 1]| > 0 && !IsSpace(data[|data| - 1][|data[|data| - 1]| - 1])
    ensures Split(Files(dict)[i].content, '\n') == Lists(dict)[i]
  {
    ContentReadsBack(Lists(dict)[i]);
  }
}

=== FILE: preproc.dfy ===
/**
 Classification of the name corpus (`Preproc` in internal/ent/preproc.go).

 Every name is split on single spaces. A one-word name is counted as a
 genus when the genus authority list knows it and as a uninomial
 otherwise. In a longer name every epithet that is not on the species
 blacklist is counted as a species word; the genus is counted and the name
 recorded as a canonical form unless the first epithet is blacklisted, and
 the canonical form stops before the first blacklisted epithet. A final
 pass moves every uninomial that also turned up as a genus into the genus
 table.
 */
module Preproc {
  import opened Text
  import opened Tally

  /** The multiplication sign, U+00D7, that marks hybrid names. */
  const HybridSign: char := '\U{00D7}'

  /** The three frequency tables and the set of canonical forms. */
  datatype Tables = Tables(
    uninomials: Table,
    genera: Table,
    species: Table,
    canonical: set<string>)

  const Empty: Tables := Tables(map[], map[], map[], {})

  /* ---------------------------------------------------------------- */
  /* One name                                                         */
  /* ---------------------------------------------------------------- */

  /** A one-word name: one more genus if the authority list has it, one
      more uninomial otherwise; nothing else changes. */
  function WordsUni(t: Tables, authority: set<string>, w: string): (r: Tables)
    ensures Count(r.genera, w) == Count(t.genera, w) + (if w in authority then 1 else 0)
    ensures Count(r.uninomials, w) == Count(t.uninomials, w) + (if w in authority then 0 else 1)
    ensures forall k :: k != w ==> Count(r.genera, k) == Count(t.genera, k)
    ensures forall k :: k != w ==> Count(r.uninomials, k) == Count(t.uninomials, k)
    ensures r.genera.Keys == t.genera.Keys + (if w in authority then {w} else {})
    ensures r.uninomials.Keys == t.uninomials.Keys + (if w in authority then {} else {w})
    ensures r.species == t.species && r.canonical == t.canonical
  {
    if w in authority then t.(genera := Inc(t.genera, w))
    else t.(uninomials := Inc(t.uninomials, w))
  }

  /** The species table after counting the epithets `eps` one by one,
      skipping blacklisted ones: each word not on the blacklist gains its
      number of occurrences, blacklisted words gain nothing. */
  function CountEpithets(species: Table, eps: seq<string>, black: set<string>): (r: Table)
    ensures forall k :: Count(r, k) == Count(species, k) + (if k in black then 0 else multiset(eps)[k])
    ensures r.Keys == species.Keys + (set e | e in eps && e !in black)
    decreases |eps|
  {
    if |eps| == 0 then species
    else
      EpithetsCons(eps, black);
      CountEpithets(if eps[0] in black then species else Inc(species, eps[0]), eps[1..], black)
  }

  /* The first epithet and the rest, as a multiset and as a set of
     counted words. */
  lemma EpithetsCons(eps: seq<string>, black: set<string>)
    requires |eps| > 0
    ensures multiset(eps) == multiset{eps[0]} + multiset(eps[1..])
    ensures (set e | e in eps && e !in black)
            == (if eps[0] in black then {} else {eps[0]}) + (set e | e in eps[1..] && e !in black)
  {
    assert eps == [eps[0]] + eps[1..];
  }

  /** The position of the first blacklisted epithet, or 0 when there is
      none (`idxBlkSp` in `wordsSp`). */
  function FirstBlacklisted(words: seq<string>, black: set<string>): (cut: nat)
    ensures cut == 0 || (1 <= cut < |words| && words[cut] in black)
    ensures forall k :: 1 <= k < |words| && (cut == 0 || k < cut) ==> words[k] !in black
  {
    ScanFrom(words, black, 1)
  }

  function ScanFrom(words: seq<string>, black: set<string>, i: nat): (cut: nat)
    requires 1 <= i
    ensures cut == 0 || (i <= cut < |words| && words[cut] in black)
    ensures forall k :: i <= k < |words| && (cut == 0 || k < cut) ==> words[k] !in black
    decreases |words| - i
  {
    if i >= |words| then 0
    else if words[i] in black then i
    else ScanFrom(words, black, i + 1)
  }

  /** The first epithet is blacklisted: the name adds species counts but
      neither a genus count nor a canonical form. */
  predicate Discarded(words: seq<string>, black: set<string>)
  {
    |words| >= 2 && words[1] in black
  }

  /** The words the canonical form keeps: the longest prefix of `words`
      without a blacklisted epithet. */
  function Kept(words: seq<string>, black: set<string>): (p: seq<string>)
    requires |words| >= 1
    ensures 1 <= |p| <= |words| && p == words[..|p|]
    ensures forall k :: 1 <= k < |p| ==> p[k] !in black
    ensures |p| == |words| || words[|p|] in black
  {
    var cut := FirstBlacklisted(words, black);
    if cut == 0 then words else words[..cut]
  }

  /** A name of two or more words (`wordsSp`). Species counts rise for the
      non-blacklisted epithets even when the name is then discarded; a
      name that is not discarded adds one to its genus and records the
      join of its kept words. */
  function WordsSp(t: Tables, black: set<string>, words: seq<string>): (r: Tables)
    requires |words| >= 1
    ensures forall k :: Count(r.species, k)
                        == Count(t.species, k) + (if k in black then 0 else multiset(words[1..])[k])
    ensures r.uninomials == t.uninomials
    ensures Discarded(words, black) ==> r.genera == t.genera && r.canonical == t.canonical
    ensures !Discarded(words, black) ==>
              && Count(r.genera, words[0]) == Count(t.genera, words[0]) + 1
              && (forall k :: k != words[0] ==> Count(r.genera, k) == Count(t.genera, k))
              && r.genera.Keys == t.genera.Keys + {words[0]}
              && r.canonical == t.canonical + {Join(Kept(words, black), ' ')}
  {
    var species := CountEpithets(t.species, words[1..], black);
    var cut := FirstBlacklisted(words, black);
    if cut == 1 then t.(species := species)
    else
      var canon := if cut == 0 then Join(words, ' ') else Join(words[..cut], ' ');
      Tables(t.uninomials, Inc(t.genera, words[0]), species, t.canonical + {canon})
  }

  /** One corpus name split on single spaces (`words`): a name without a
      space is a one-word name, a name with one is a longer name. */
  function Words(t: Tables, authority: set<string>, black: set<string>, s: string): (r: Tables)
    ensures ' ' !in s ==> r == WordsUni(t, authority, s)
    ensures ' ' in s ==> r == WordsSp(t, black, Split(s, ' '))
  {
    var words := Split(s, ' ');
    SplitSingle(s, ' ');
    if |words| == 1 then WordsUni(t, authority, words[0])
    else WordsSp(t, black, words)
  }

  /** One iteration of the loop in `Preprocess`: hybrid names are skipped. */
  function Step(t: Tables, authority: set<string>, black: set<string>, name: string): (r: Tables)
  {
    if HybridSign in name then t else Words(t, authority, black, name)
  }

  /** The loop in `Preprocess` over the whole corpus, in corpus order. */
  function Classify(t: Tables, authority: set<string>, black: set<string>, names: seq<string>): (r: Tables)
    decreases |names|
  {
    if |names| == 0 then t
    else Classify(Step(t, authority, black, names[0]), authority, black, names[1..])
  }

  /** The reconciliation pass (`cleanupUni`): every uninomial that is also
      a genus has its count added to the genus and leaves the uninomial
      table. */
  function CleanupUni(t: Tables): (r: Tables)
    ensures r.uninomials.Keys !! r.genera.Keys
    ensures r.genera.Keys == t.genera.Keys
    ensures r.uninomials.Keys == t.uninomials.Keys - t.genera.Keys
    ensures forall k :: k in r.uninomials ==> r.uninomials[k] == t.uninomials[k]
    ensures forall k :: Count(r.uninomials, k) + Count(r.genera, k)
                        == Count(t.uninomials, k) + Count(t.genera, k)
    ensures r.species == t.species && r.canonical == t.canonical
  {
    Tables(
      map k | k in t.uninomials && k !in t.genera :: t.uninomials[k],
      map k | k in t.genera :: t.genera[k] + Count(t.uninomials, k),
      t.species,
      t.canonical)
  }

  /** Classification of the whole corpus followed by reconciliation. */
  function Preprocess(names: seq<string>, authority: set<string>, black: set<string>): Tables
  {
    CleanupUni(Classify(Empty, authority, black, names))
  }

  /* ---------------------------------------------------------------- */
  /* What the corpus contributes                                      */
  /* ---------------------------------------------------------------- */

  /** The word a name adds to the uninomial or genus table: the word of a
      one-word name, the genus of a longer name that is not discarded,
      nothing for a hybrid or discarded name. */
  function NameHead(name: string, black: set<string>): seq<string>
  {
    if HybridSign in name then []
    else
      var ws := Split(name, ' ');
      if Discarded(ws, black) then [] else [ws[0]]
  }

  function Heads(names: seq<string>, black: set<string>): seq<string>
    decreases |names|
  {
    if |names| == 0 then [] else NameHead(names[0], black) + Heads(names[1..], black)
  }

  /** The epithets of a name: every word after the first, none for a
      hybrid. */
  function NameEpithets(name: string): seq<string>
  {
    if HybridSign in name then [] else Split(name, ' ')[1..]
  }

  function Epithets(names: seq<string>): seq<string>
    decreases |names|
  {
    if |names| == 0 then [] else NameEpithets(names[0]) + Epithets(names[1..])
  }

  /** The names of the corpus that are not hybrids. */
  function NonHybrid(names: seq<string>): seq<string>
    decreases |names|
  {
    if |names| == 0 then []
    else if HybridSign in names[0] then NonHybrid(names[1..])
    else [names[0]] + NonHybrid(names[1..])
  }

  /* ---------------------------------------------------------------- */
  /* Lemmas                                                           */
  /* ---------------------------------------------------------------- */

  /** Hybrid names change nothing: classifying the corpus is classifying
      it with its hybrids removed. */
  lemma {:induction false} ClassifySkipsHybrids(t: Tables, authority: set<string>, black: set<string>, names: seq<string>)
    ensures Classify(t, authority, black, names) == Classify(t, authority, black, NonHybrid(names))
    decreases |names|
  {
    if |names| > 0 {
      var t' := Step(t, authority, black, names[0]);
      ClassifySkipsHybrids(t', authority, black, names[1..]);
      if HybridSign !in names[0] {
        var n := NonHybrid(names);
        assert n[0] == names[0] && n[1..] == NonHybrid(names[1..]);
      }
    }
  }

  /** One name adds its head once to the uninomial or genus tables taken
      together, and its non-blacklisted epithets to the species table. */
  lemma StepCounts(t: Tables, authority: set<string>, black: set<string>, name: string)
    ensures var r := Step(t, authority, black, name);
            forall k :: Count(r.uninomials, k) + Count(r.genera, k)
                        == Count(t.uninomials, k) + Count(t.genera, k) + multiset(NameHead(name, black))[k]
    ensures var r := Step(t, authority, black, name);
            forall k :: Count(r.species, k)
                        == Count(t.species, k) + (if k in black then 0 else multiset(NameEpithets(name))[k])
  {
    if HybridSign !in name {
      SplitSingle(name, ' ');
    }
  }

  /** Counting conservation over the corpus: every word's combined
      uninomial and genus count rises by the number of names it heads,
      and every word's species count by its occurrences as an epithet
      unless it is blacklisted. */
  lemma {:induction false} ClassifyCounts(t: Tables, authority: set<string>, black: set<string>, names: seq<string>)
    ensures var r := Classify(t, authority, black, names);
            forall k :: Count(r.uninomials, k) + Count(r.genera, k)
                        == Count(t.uninomials, k) + Count(t.genera, k) + multiset(Heads(names, black))[k]
    ensures var r := Classify(t, authority, black, names);
            forall k :: Count(r.species, k)
                        == Count(t.species, k) + (if k in black then 0 else multiset(Epithets(names))[k])
    decreases |names|
  {
    if |names| > 0 {
      var t' := Step(t, authority, black, names[0]);
      StepCounts(t, authority, black, names[0]);
      ClassifyCounts(t', authority, black, names[1..]);
    }
  }

  /** The combined total of the uninomial and genus tables is the number
      of names that head an entry. */
  lemma {:induction false} ClassifyTotal(t: Tables, authority: set<string>, black: set<string>, names: seq<string>)
    ensures var r := Classify(t, authority, black, names);
            Total(r.uninomials) + Total(r.genera) == Total(t.uninomials) + Total(t.genera) + |Heads(names, black)|
    decreases |names|
  {
    if |names| > 0 {
      var name := names[0];
      var t' := Step(t, authority, black, name);
      if HybridSign !in name {
        var ws := Split(name, ' ');
        SplitSingle(name, ' ');
        if |ws| == 1 {
          if name in authority { TotalInc(t.genera, name); } else { TotalInc(t.uninomials, name); }
        } else if !Discarded(ws, black) {
          TotalInc(t.genera, ws[0]);
        }
      }
      ClassifyTotal(t', authority, black, names[1..]);
    }
  }

  /** The reconciliation keeps the combined total of the uninomial and
      genus tables. */
  lemma CleanupUniTotal(t: Tables)
    ensures var r := CleanupUni(t);
            Total(r.uninomials) + Total(r.genera) == Total(t.uninomials) + Total(t.genera)
  {
    var r := CleanupUni(t);
    TotalPointwise(r.uninomials, r.genera, t.uninomials, t.genera);
  }

  /** What the whole classification stage counts: each word's uninomial
      plus genus count is the number of names it heads, so no word is
      counted twice; species counts are epithet occurrences of words not on
      the blacklist; and no word is both a uninomial and a genus. */
  lemma PreprocessCounts(names: seq<string>, authority: set<string>, black: set<string>)
    ensures var r := Preprocess(names, authority, black);
            forall k :: Count(r.uninomials, k) + Count(r.genera, k) == multiset(Heads(names, black))[k]
    ensures var r := Preprocess(names, authority, black);
            forall k :: Count(r.species, k) == if k in black then 0 else multiset(Epithets(names))[k]
    ensures var r := Preprocess(names, authority, black);
            Total(r.uninomials) + Total(r.genera) == |Heads(names, black)|
    ensures var r := Preprocess(names, authority, black);
            r.uninomials.Keys !! r.genera.Keys
  {
    ClassifyCounts(Empty, authority, black, names);
    var c := Classify(Empty, authority, black, names);
    ClassifyTotal(Empty, authority, black, names);
    CleanupUniTotal(c);
    assert Total(map[]) == 0;
  }

  /* ---------------------------------------------------------------- */
  /* Well-formed tables                                               */
  /* ---------------------------------------------------------------- */

  /** A canonical form of two or more words whose genus is in the genus
      table and none of whose epithets is blacklisted. */
  predicate GoodCanonical(c: string, genera: Table, black: set<string>)
  {
    var ws := Split(c, ' ');
    && |ws| >= 2
    && ws[0] in genera
    && forall i :: 1 <= i < |ws| ==> ws[i] !in black
  }

  /** What classification keeps true of its tables: counts are positive, no
      uninomial is in the authority list, no species word is blacklisted,
      and every canonical form is good. */
  predicate WellFormed(t: Tables, authority: set<string>, black: set<string>)
  {
    && Positive(t.uninomials) && Positive(t.genera) && Positive(t.species)
    && (forall k :: k in t.uninomials ==> k !in authority)
    && (forall k :: k in t.species ==> k !in black)
    && (forall c :: c in t.canonical ==> GoodCanonical(c, t.genera, black))
  }

  /** The canonical form of a name that is not discarded: when no epithet
      is blacklisted it is the whole name, otherwise the words before the
      first blacklisted epithet; either way it has at least two words, the
      first being the genus, and no blacklisted epithet. */
  lemma CanonicalShape(words: seq<string>, black: set<string>)
    requires |words| >= 2 && !Discarded(words, black)
    requires forall i :: 0 <= i < |words| ==> ' ' !in words[i]
    ensures (forall i :: 1 <= i < |words| ==> words[i] !in black) ==> Kept(words, black) == words
    ensures var ws := Split(Join(Kept(words, black), ' '), ' ');
            && ws == Kept(words, black)
            && |ws| >= 2
            && ws[0] == words[0]
            && forall i :: 1 <= i < |ws| ==> ws[i] !in black
  {
    var p := Kept(words, black);
    SplitJoin(p, ' ');
  }

  lemma CountEpithetsClean(species: Table, eps: seq<string>, black: set<string>)
    requires Positive(species) && forall k :: k in species ==> k !in black
    ensures var r := CountEpithets(species, eps, black);
            Positive(r) && forall k :: k in r ==> k !in black
  {
    var r := CountEpithets(species, eps, black);
    forall k | k in r ensures r[k] >= 1 && k !in black {
      if k !in species {
        assert k in eps && k !in black;
        assert multiset(eps)[k] >= 1;
      }
    }
  }

  lemma WordsSpSpeciesTable(t: Tables, black: set<string>, words: seq<string>)
    requires |words| >= 1
    ensures WordsSp(t, black, words).species == CountEpithets(t.species, words[1..], black)
  {
  }

  lemma WordsSpSpecies(t: Tables, black: set<string>, words: seq<string>)
    requires |words| >= 2
    requires Positive(t.species) && forall k :: k in t.species ==> k !in black
    ensures var r := WordsSp(t, black, words);
            Positive(r.species) && forall k :: k in r.species ==> k !in black
  {
    WordsSpSpeciesTable(t, black, words);
    CountEpithetsClean(t.species, words[1..], black);
  }

  lemma WordsSpCanonical(t: Tables, black: set<string>, words: seq<string>)
    requires |words| >= 2
    requires forall i :: 0 <= i < |words| ==> ' ' !in words[i]
    requires forall c :: c in t.canonical ==> GoodCanonical(c, t.genera, black)
    ensures var r := WordsSp(t, black, words);
            forall c :: c in r.canonical ==> GoodCanonical(c, r.genera, black)
  {
    var r := WordsSp(t, black, words);
    forall c | c in r.canonical ensures GoodCanonical(c, r.genera, black) {
      if c in t.canonical {
        assert GoodCanonical(c, t.genera, black);
      } else {
        CanonicalShape(words, black);
      }
    }
  }

  lemma WordsSpWellFormed(t: Tables, authority: set<string>, black: set<string>, words: seq<string>)
    requires WellFormed(t, authority, black)
    requires |words| >= 2
    requires forall i :: 0 <= i < |words| ==> ' ' !in words[i]
    ensures WellFormed(WordsSp(t, black, words), authority, black)
  {
    WordsSpSpecies(t, black, words);
    WordsSpCanonical(t, black, words);
  }

  lemma StepWellFormed(t: Tables, authority: set<string>, black: set<string>, name: string)
    requires WellFormed(t, authority, black)
    ensures WellFormed(Step(t, authority, black, name), authority, black)
  {
    if HybridSign !in name {
      var ws := Split(name, ' ');
      SplitSingle(name, ' ');
      if |ws| >= 2 {
        WordsSpWellFormed(t, authority, black, ws);
      } else {
        var r := WordsUni(t, authority, name);
        forall c | c in r.canonical ensures GoodCanonical(c, r.genera, black) {
          assert GoodCanonical(c, t.genera, black);
        }
      }
    }
  }

  lemma {:induction false} ClassifyWellFormed(t: Tables, authority: set<string>, black: set<string>, names: seq<string>)
    requires WellFormed(t, authority, black)
    ensures WellFormed(Classify(t, authority, black, names), authority, black)
    decreases |names|
  {
    if |names| > 0 {
      StepWellFormed(t, authority, black, names[0]);
      ClassifyWellFormed(Step(t, authority, black, names[0]), authority, black, names[1..]);
    }
  }

  /** The tables the classification stage hands on are well formed: in
      particular a one-word name on the authority list never ends up as a
      uninomial, and every canonical form names a counted genus. */
  lemma PreprocessWellFormed(names: seq<string>, authority: set<string>, black: set<string>)
    ensures WellFormed(Preprocess(names, authority, black), authority, black)
  {
    ClassifyWellFormed(Empty, authority, black, names);
  }

  /* Two tables with the same keys and counts are equal. */
  lemma TableEq(a: Table, b: Table)
    requires a.Keys == b.Keys
    requires forall k :: k in a ==> Count(a, k) == Count(b, k)
    ensures a == b
  {
  }

  /* The worked example, for any genus `g` and distinct epithets `a` and
     `b`: the names "g a", "g a b" and "g". */

  /** A plain word: a word without the hybrid sign. */
  predicate Plain(w: string)
  {
    Word(w) && HybridSign !in w
  }

  /* Classifying a non-empty corpus is classifying its rest after the
     first step. */
  lemma ClassifyFirst(t: Tables, authority: set<string>, black: set<string>, names: seq<string>)
    requires |names| > 0
    ensures Classify(t, authority, black, names)
            == Classify(Step(t, authority, black, names[0]), authority, black, names[1..])
  {
  }

  /** After "g a": g is a genus once, a a species word once, and "g a" a
      canonical form. */
  function ExampleT1(g: string, a: string): Tables
  {
    Tables(map[], map[g := 1], map[a := 1], {g + " " + a})
  }

  /** After "g a b". */
  function ExampleT2(g: string, a: string, b: string): Tables
  {
    Tables(map[], map[g := 2], map[a := 2, b := 1], {g + " " + a, g + " " + a + " " + b})
  }

  /** After "g": the bare genus is counted as a uninomial. */
  function ExampleT3(g: string, a: string, b: string): Tables
  {
    ExampleT2(g, a, b).(uninomials := map[g := 1])
  }

  /* A name with a space and without a hybrid sign is classified by its
     words. */
  lemma StepLonger(t: Tables, authority: set<string>, black: set<string>, name: string)
    requires HybridSign !in name && ' ' in name
    ensures Step(t, authority, black, name) == WordsSp(t, black, Split(name, ' '))
  {
  }

  lemma ExampleStep1(g: string, a: string, b: string)
    requires Plain(g) && Plain(a) && Plain(b)
    ensures Step(Empty, {}, {}, g + " " + a) == ExampleT1(g, a)
  {
    var name := g + " " + a;
    SplitTwo(g, a);
    JoinTwo(g, a);
    var w := [g, a];
    assert name[|g|] == ' ';
    StepLonger(Empty, {}, {}, name);
    assert Kept(w, {}) == w;
    var r := WordsSp(Empty, {}, w);
    assert w[1..] == [a];
    TableEq(r.genera, ExampleT1(g, a).genera);
    TableEq(r.species, ExampleT1(g, a).species);
  }

  lemma ExampleStep2Species(g: string, a: string, b: string)
    requires a != b
    ensures WordsSp(ExampleT1(g, a), {}, [g, a, b]).species == ExampleT2(g, a, b).species
  {
    var w := [g, a, b];
    var r := WordsSp(ExampleT1(g, a), {}, w);
    assert multiset(w[1..]) == multiset{a, b};
    TableEq(r.species, ExampleT2(g, a, b).species);
  }

  lemma ExampleStep2Genera(g: string, a: string, b: string)
    ensures WordsSp(ExampleT1(g, a), {}, [g, a, b]).genera == ExampleT2(g, a, b).genera
    ensures WordsSp(ExampleT1(g, a), {}, [g, a, b]).uninomials == map[]
  {
    var r := WordsSp(ExampleT1(g, a), {}, [g, a, b]);
    TableEq(r.genera, ExampleT2(g, a, b).genera);
  }

  lemma ExampleStep2(g: string, a: string, b: string)
    requires Plain(g) && Plain(a) && Plain(b) && a != b
    ensures Step(ExampleT1(g, a), {}, {}, g + " " + a + " " + b) == ExampleT2(g, a, b)
  {
    var name := g + " " + a + " " + b;
    SplitThree(g, a, b);
    JoinThree(g, a, b);
    var w := [g, a, b];
    assert name[|g|] == ' ';
    StepLonger(ExampleT1(g, a), {}, {}, name);
    assert Kept(w, {}) == w;
    ExampleStep2Species(g, a, b);
    ExampleStep2Genera(g, a, b);
  }

  lemma ExampleStep3(g: string, a: string, b: string)
    requires Plain(g)
    ensures Step(ExampleT2(g, a, b), {}, {}, g) == ExampleT3(g, a, b)
  {
    var r := WordsUni(ExampleT2(g, a, b), {}, g);
    TableEq(r.uninomials, ExampleT3(g, a, b).uninomials);
  }

  lemma ExampleClassify(g: string, a: string, b: string)
    requires Plain(g) && Plain(a) && Plain(b) && a != b
    ensures Classify(Empty, {}, {}, [g + " " + a, g + " " + a + " " + b, g]) == ExampleT3(g, a, b)
  {
    var names := [g + " " + a, g + " " + a + " " + b, g];
    ExampleStep1(g, a, b);
    ExampleStep2(g, a, b);
    ExampleStep3(g, a, b);
    ClassifyFirst(Empty, {}, {}, names);
    ClassifyFirst(ExampleT1(g, a), {}, {}, names[1..]);
    ClassifyFirst(ExampleT2(g, a, b), {}, {}, names[1..][1..]);
  }

  /** The worked example: with an empty authority list and blacklist, the
      names "g a", "g a b" and "g" give the genus g counted three times
      (the bare "g" first counted as a uninomial, then reconciled), the
      species words a twice and b once, and two canonical forms. */
  lemma Example(g: string, a: string, b: string)
    requires Plain(g) && Plain(a) && Plain(b) && a != b
    ensures Preprocess([g + " " + a, g + " " + a + " " + b, g], {}, {})
            == Tables(map[], map[g := 3], map[a := 2, b := 1], {g + " " + a, g + " " + a + " " + b})
  {
    ExampleClassify(g, a, b);
    var r := CleanupUni(ExampleT3(g, a, b));
    TableEq(r.uninomials, map[]);
    TableEq(r.genera, map[g := 3]);
  }

  /** The species blacklist is looked up with the epithet as written: a
      name "g e" whose epithet is not on the blacklist in that spelling,
      a capitalised form of a blacklisted word for instance, is recorded as
      a canonical form. */
  lemma CanonicalExactCase(t: Tables, authority: set<string>, black: set<string>, g: string, e: string)
    requires Plain(g) && Plain(e) && e !in black
    ensures g + " " + e in Step(t, authority, black, g + " " + e).canonical
  {
    var name := g + " " + e;
    SplitTwo(g, e);
    JoinTwo(g, e);
    assert name[|g|] == ' ';
    assert HybridSign !in name by {
      assert name == g + [' '] + e;
    }
    StepLonger(t, authority, black, name);
    assert Kept([g, e], black) == [g, e];
  }
}

=== FILE: tally.dfy ===
/**
 Frequency tables: a Go `map[string]int` whose counts only rise, starting
 from one, so an absent key reads as zero and a present key has a
 positive count.
 */
module Tally {

  type Table = map<string, nat>

  /** The count of `w`, zero when `w` is not a key (Go's zero value). */
  function Count(t: Table, w: string): nat
  {
    if w in t then t[w] else 0
  }

  /** Go's `t[w] += 1`: `w` becomes a key, its count rises by one and no
      other count changes. */
  function Inc(t: Table, w: string): (r: Table)
    ensures r.Keys == t.Keys + {w}
    ensures Count(r, w) == Count(t, w) + 1
    ensures forall k :: k != w ==> Count(r, k) == Count(t, k)
  {
    t[w := Count(t, w) + 1]
  }

  /** Every key has a positive count. */
  predicate Positive(t: Table)
  {
    forall k :: k in t ==> t[k] >= 1
  }

  /** The sum of the counts of `keys` in `t`. */
  ghost function SumOver(t: Table, keys: set<string>): nat
    decreases keys
  {
    if keys == {} then 0
    else
      var k :| k in keys;
      Count(t, k) + SumOver(t, keys - {k})
  }

  /** The sum of all counts of `t`. */
  ghost function Total(t: Table): nat
  {
    SumOver(t, t.Keys)
  }

  /** The sum does not depend on which key is taken out first. */
  lemma {:induction false} SumOverPick(t: Table, keys: set<string>, k: string)
    requires k in keys
    ensures SumOver(t, keys) == Count(t, k) + SumOver(t, keys - {k})
    decreases keys
  {
    var j :| j in keys && SumOver(t, keys) == Count(t, j) + SumOver(t, keys - {j});
    if j != k {
      SumOverPick(t, keys - {j}, k);
      SumOverPick(t, keys - {k}, j);
      assert keys - {j} - {k} == keys - {k} - {j};
    }
  }

  /** Keys without a count add nothing to a sum. */
  lemma {:induction false} SumOverSuperset(t: Table, keys: set<string>)
    requires t.Keys <= keys
    ensures SumOver(t, keys) == Total(t)
    decreases keys
  {
    if keys != t.Keys {
      var x :| x in keys && x !in t.Keys;
      SumOverPick(t, keys, x);
      SumOverSuperset(t, keys - {x});
    }
  }

  /** Sums of tables that agree key by key agree. */
  lemma {:induction false} SumOverPointwise(a: Table, b: Table, c: Table, d: Table, keys: set<string>)
    requires forall k :: k in keys ==> Count(a, k) + Count(b, k) == Count(c, k) + Count(d, k)
    ensures SumOver(a, keys) + SumOver(b, keys) == SumOver(c, keys) + SumOver(d, keys)
    decreases keys
  {
    if keys != {} {
      var x :| x in keys;
      SumOverPick(a, keys, x);
      SumOverPick(b, keys, x);
      SumOverPick(c, keys, x);
      SumOverPick(d, keys, x);
      SumOverPointwise(a, b, c, d, keys - {x});
    }
  }

  /** When two pairs of tables hold the same combined count for every
      word, they hold the same combined total. */
  lemma TotalPointwise(a: Table, b: Table, c: Table, d: Table)
    requires forall k :: Count(a, k) + Count(b, k) == Count(c, k) + Count(d, k)
    ensures Total(a) + Total(b) == Total(c) + Total(d)
  {
    var keys := a.Keys + b.Keys + c.Keys + d.Keys;
    SumOverSuperset(a, keys);
    SumOverSuperset(b, keys);
    SumOverSuperset(c, keys);
    SumOverSuperset(d, keys);
    SumOverPointwise(a, b, c, d, keys);
  }

  /** One increment adds one to the total. */
  lemma TotalInc(t: Table, w: string)
    ensures Total(Inc(t, w)) == Total(t) + 1
  {
    var r := Inc(t, w);
    var keys := t.Keys + {w};
    SumOverSuperset(t, keys);
    SumOverPick(r, keys, w);
    SumOverPick(t, keys, w);
    SumOverPointwise(r, map[], t, map[], keys - {w});
    assert SumOver(map[], keys - {w}) == 0 by { SumOverSuperset(map[], keys - {w}); }
  }
}

=== FILE: text.dfy ===
/**
 The handful of Go string primitives the dictionary generator relies on,
 stated over Dafny strings (sequences of Unicode scalar values):
 `strings.Split`/`strings.Join` with a one-character separator, the part
 before the first separator (`strings.Cut`), `strings.TrimSpace`,
 `strings.ToLower` (ASCII letters only), `unicode.IsDigit` (ASCII digits
 only), and Go's `len`, which counts the bytes of the UTF-8 encoding.
 */
module Text {

  /* ---------------------------------------------------------------- */
  /* Split and Join                                                   */
  /* ---------------------------------------------------------------- */

  /** The separator-joined form of `ws`; the empty sequence joins to "". */
  function Join(ws: seq<string>, sep: char): string
  {
    if |ws| == 0 then ""
    else if |ws| == 1 then ws[0]
    else ws[0] + [sep] + Join(ws[1..], sep)
  }

  /** The pieces of `s` between occurrences of `sep`. Like Go's
      `strings.Split` with a non-empty separator, there is always at least
      one piece, and `s` with n separators gives n + 1 pieces. */
  function Split(s: string, sep: char): (r: seq<string>)
    ensures |r| >= 1
    ensures forall i :: 0 <= i < |r| ==> sep !in r[i]
    decreases |s|
  {
    if |s| == 0 then [""]
    else
      var rest := Split(s[1..], sep);
      if s[0] == sep then [""] + rest
      else [[s[0]] + rest[0]] + rest[1..]
  }

  /** Splitting, then joining with the same separator, gives back `s`. */
  lemma {:induction false} JoinSplit(s: string, sep: char)
    ensures Join(Split(s, sep), sep) == s
    decreases |s|
  {
    if |s| > 0 {
      var rest := Split(s[1..], sep);
      JoinSplit(s[1..], sep);
      if s[0] == sep {
        assert ([""] + rest)[1..] == rest;
      } else {
        var r := [[s[0]] + rest[0]] + rest[1..];
        assert r[1..] == rest[1..];
        if |rest| == 1 {
          assert s == [s[0]] + s[1..];
        } else {
          assert Join(rest, sep) == rest[0] + [sep] + Join(rest[1..], sep);
          assert s == [s[0]] + s[1..];
        }
      }
    }
  }

  /** A string without the separator is a single piece. */
  lemma {:induction false} SplitNoSep(s: string, sep: char)
    requires sep !in s
    ensures Split(s, sep) == [s]
    decreases |s|
  {
    if |s| > 0 {
      assert sep !in s[1..];
      SplitNoSep(s[1..], sep);
      assert [s[0]] + s[1..] == s;
    }
  }

  /** Splitting `x`, a separator and `y` gives the pieces of `x` followed
      by the pieces of `y`. */
  lemma {:induction false} SplitConcat(x: string, y: string, sep: char)
    ensures Split(x + [sep] + y, sep) == Split(x, sep) + Split(y, sep)
    decreases |x|
  {
    var s := x + [sep] + y;
    if |x| == 0 {
      assert s[0] == sep && s[1..] == y;
    } else {
      assert s[0] == x[0];
      assert s[1..] == x[1..] + [sep] + y;
      SplitConcat(x[1..], y, sep);
      var px := Split(x[1..], sep);
      var py := Split(y, sep);
      assert Split(s[1..], sep) == px + py;
      if x[0] == sep {
        assert Split(s, sep) == [""] + (px + py);
      } else {
        assert (px + py)[0] == px[0];
        assert (px + py)[1..] == px[1..] + py;
      }
    }
  }

  /** Joining pieces that do not contain the separator, then splitting,
      gives the pieces back: the two functions are inverse. */
  lemma {:induction false} SplitJoin(ws: seq<string>, sep: char)
    requires |ws| >= 1
    requires forall i :: 0 <= i < |ws| ==> sep !in ws[i]
    ensures Split(Join(ws, sep), sep) == ws
    decreases |ws|
  {
    SplitNoSep(ws[0], sep);
    if |ws| > 1 {
      SplitJoin(ws[1..], sep);
      SplitConcat(ws[0], Join(ws[1..], sep), sep);
      assert [ws[0]] + ws[1..] == ws;
    }
  }

  /** A string splits into a single piece exactly when it lacks the
      separator, and that piece is then the string itself. */
  lemma SplitSingle(s: string, sep: char)
    ensures |Split(s, sep)| == 1 <==> sep !in s
    ensures sep !in s ==> Split(s, sep) == [s]
  {
    if sep !in s {
      SplitNoSep(s, sep);
    } else {
      JoinSplit(s, sep);
      JoinHasSep(Split(s, sep), sep);
    }
  }

  /** A joined string contains the separator exactly where the pieces meet:
      it lacks the separator if and only if there is at most one piece. */
  lemma {:induction false} JoinHasSep(ws: seq<string>, sep: char)
    requires forall i :: 0 <= i < |ws| ==> sep !in ws[i]
    ensures sep in Join(ws, sep) <==> |ws| >= 2
  {
    if |ws| >= 2 {
      var j := Join(ws, sep);
      assert j[|ws[0]|] == sep;
    }
  }

  /** A word of a name: not empty and without a space. */
  predicate Word(w: string)
  {
    |w| > 0 && ' ' !in w
  }

  /** A name of two words splits back into its words. */
  lemma SplitTwo(g: string, a: string)
    requires Word(g) && Word(a)
    ensures Split(g + " " + a, ' ') == [g, a]
  {
    SplitSingle(g, ' ');
    SplitSingle(a, ' ');
    SplitConcat(g, a, ' ');
  }

  /** A name of three words splits back into its words. */
  lemma SplitThree(g: string, a: string, b: string)
    requires Word(g) && Word(a) && Word(b)
    ensures Split(g + " " + a + " " + b, ' ') == [g, a, b]
  {
    SplitTwo(g, a);
    SplitSingle(b, ' ');
    SplitConcat(g + " " + a, b, ' ');
  }

  /** Two words joined with a space. */
  lemma JoinTwo(g: string, a: string)
    ensures Join([g, a], ' ') == g + " " + a
  {
    assert [g, a][1..] == [a];
  }

  /** Three words joined with spaces. */
  lemma JoinThree(g: string, a: string, b: string)
    ensures Join([g, a, b], ' ') == g + " " + a + " " + b
  {
    var w := [g, a, b];
    assert w[1..] == [a, b];
    assert Join(w[1..], ' ') == a + " " + b;
    assert g + " " + a + " " + b == g + " " + (a + " " + b);
  }

  /* ---------------------------------------------------------------- */
  /* strings.Cut                                                      */
  /* ---------------------------------------------------------------- */

  /** The part of `s` before the first `c`, or all of `s` when there is
      none (the first result of Go's `strings.Cut`). */
  function Before(s: string, c: char): (r: string)
    ensures |r| <= |s| && r == s[..|r|]
    ensures c !in r
    ensures |r| < |s| ==> s[|r|] == c
    decreases |s|
  {
    if |s| == 0 then ""
    else if s[0] == c then ""
    else [s[0]] + Before(s[1..], c)
  }

  /** The part before the first `c` is the first piece of the split. */
  lemma {:induction false} BeforeIsFirstPiece(s: string, c: char)
    ensures Before(s, c) == Split(s, c)[0]
    decreases |s|
  {
    if |s| > 0 && s[0] != c {
      BeforeIsFirstPiece(s[1..], c);
    }
  }

  /* ---------------------------------------------------------------- */
  /* strings.TrimSpace                                                */
  /* ---------------------------------------------------------------- */

  /** White space in the sense of Go's `unicode.IsSpace`: the Latin-1
      spaces and the characters with the Unicode White_Space property. */
  predicate IsSpace(c: char)
  {
    c in SpaceChars || '\U{2000}' <= c <= '\U{200A}'
  }

  /** The white-space characters outside the range U+2000 to U+200A. */
  const SpaceChars: set<char> := {
    '\t', '\n', '\U{000B}', '\U{000C}', '\r', ' ', '\U{0085}', '\U{00A0}', '\U{1680}',
    '\U{2028}', '\U{2029}', '\U{202F}', '\U{205F}', '\U{3000}'}

  /** `s` neither starts nor ends with white space. */
  predicate Trimmed(s: string)
  {
    |s| == 0 || (!IsSpace(s[0]) && !IsSpace(s[|s| - 1]))
  }

  /** The end of the white space `s` starts with: every character before
      it is white space, and the character at it, if any, is not. */
  function LeadEnd(s: string): (n: nat)
    ensures n <= |s|
    ensures forall k :: 0 <= k < n ==> IsSpace(s[k])
    ensures n < |s| ==> !IsSpace(s[n])
    decreases |s|
  {
    if |s| > 0 && IsSpace(s[0]) then
      var n := LeadEnd(s[1..]);
      assert forall k :: 1 <= k < n + 1 ==> s[k] == s[1..][k - 1];
      n + 1
    else 0
  }

  /** The start of the white space `s` ends with, looking no further left
      than `lo`: every character from it on is white space, and the
      character before it, if it is past `lo`, is not. */
  function TrailStart(s: string, lo: nat): (n: nat)
    requires lo <= |s|
    ensures lo <= n <= |s|
    ensures forall k :: n <= k < |s| ==> IsSpace(s[k])
    ensures n > lo ==> !IsSpace(s[n - 1])
    decreases |s| - lo
  {
    if |s| > lo && IsSpace(s[|s| - 1]) then
      TrailStart(s[..|s| - 1], lo)
    else |s|
  }

  /** Go's `strings.TrimSpace`: `s` without its leading and trailing white
      space. The result is the infix of `s` between the leading and the
      trailing white space, and its own ends are not white space. */
  function TrimSpace(s: string): (r: string)
    ensures Trimmed(r)
    ensures r == s[LeadEnd(s)..TrailStart(s, LeadEnd(s))]
  {
    var i := LeadEnd(s);
    var j := TrailStart(s, i);
    var r := s[i..j];
    assert |r| > 0 ==> r[0] == s[i] && r[|r| - 1] == s[j - 1];
    r
  }

  /** The trimmed form is the only infix of `s` with white-space
      surroundings and non-space ends: whatever way such an infix is
      found, it equals `TrimSpace(s)`. */
  lemma TrimSpaceUnique(s: string, i: nat, j: nat)
    requires i <= j <= |s|
    requires forall k :: 0 <= k < i ==> IsSpace(s[k])
    requires forall k :: j <= k < |s| ==> IsSpace(s[k])
    requires Trimmed(s[i..j])
    ensures TrimSpace(s) == s[i..j]
  {
    var i' := LeadEnd(s);
    var j' := TrailStart(s, i');
    if i < j {
      assert !IsSpace(s[i]) && !IsSpace(s[j - 1]) by {
        assert s[i..j][0] == s[i];
        assert s[i..j][j - 1 - i] == s[j - 1];
      }
      assert i' == i;
      assert j' == j;
    } else {
      assert i' == |s| || j' == i';
    }
  }

  /** A string without white space at its ends is left alone by
      `TrimSpace`; in particular trimming twice is trimming once. */
  lemma TrimSpaceTrimmed(s: string)
    requires Trimmed(s)
    ensures TrimSpace(s) == s
  {
    assert s[0..|s|] == s;
    TrimSpaceUnique(s, 0, |s|);
  }

  /* ---------------------------------------------------------------- */
  /* strings.ToLower, unicode.IsDigit                                 */
  /* ---------------------------------------------------------------- */

  function LowerChar(c: char): char
  {
    if 'A' <= c <= 'Z' then (c as int + 32) as char else c
  }

  /** `s` with every ASCII capital replaced by its small letter. */
  function ToLower(s: string): (r: string)
    ensures |r| == |s|
    ensures forall i :: 0 <= i < |s| ==> r[i] == LowerChar(s[i])
  {
    seq(|s|, i requires 0 <= i < |s| => LowerChar(s[i]))
  }

  /** Lowering changes nothing but capital letters: lowering twice is
      lowering once, every character that is not a capital letter stays
      where it was, and a character that is not a letter is in the lowered
      string exactly when it is in the original. */
  lemma ToLowerProperties(s: string)
    ensures ToLower(ToLower(s)) == ToLower(s)
    ensures forall i :: 0 <= i < |s| && !('A' <= s[i] <= 'Z') ==> ToLower(s)[i] == s[i]
    ensures forall c :: !('A' <= c <= 'Z') && !('a' <= c <= 'z') ==> (c in ToLower(s) <==> c in s)
  {
    forall c | !('A' <= c <= 'Z') && !('a' <= c <= 'z')
      ensures c in ToLower(s) <==> c in s
    {
      if c in ToLower(s) {
        var i :| 0 <= i < |s| && ToLower(s)[i] == c;
        assert s[i] == c;
      }
      if c in s {
        var i :| 0 <= i < |s| && s[i] == c;
        assert ToLower(s)[i] == c;
      }
    }
  }

  predicate IsDigit(c: char)
  {
    '0' <= c <= '9'
  }

  predicate HasDigit(s: string)
  {
    exists i :: 0 <= i < |s| && IsDigit(s[i])
  }

  /* ---------------------------------------------------------------- */
  /* len: UTF-8 byte length                                           */
  /* ---------------------------------------------------------------- */

  /** The number of bytes UTF-8 uses for `c`. */
  function RuneLen(c: char): nat
  {
    if c as int < 0x80 then 1
    else if c as int < 0x800 then 2
    else if c as int < 0x10000 then 3
    else 4
  }

  predicate IsAscii(s: string)
  {
    forall i :: 0 <= i < |s| ==> s[i] as int < 0x80
  }

  /** Go's `len` of the string: the length of its UTF-8 encoding, between
      one and four bytes per character, exactly one per ASCII character. */
  function ByteLen(s: string): (n: nat)
    ensures |s| <= n <= 4 * |s|
    ensures IsAscii(s) ==> n == |s|
    decreases |s|
  {
    if |s| == 0 then 0 else RuneLen(s[0]) + ByteLen(s[1..])
  }

  /** The byte-length test `len(w) < 2` holds only for the empty string
      and single ASCII characters: a two-letter word, or one non-ASCII
      character such as "é", passes it. */
  lemma {:induction false} ByteLenBelowTwo(s: string)
    ensures ByteLen(s) < 2 <==> |s| == 0 || (|s| == 1 && s[0] as int < 0x80)
  {
    if |s| >= 1 {
      assert ByteLen(s) == RuneLen(s[0]) + ByteLen(s[1..]);
      if |s| >= 2 {
        assert ByteLen(s[1..]) >= 1;
      } else {
        assert ByteLen(s[1..]) == 0;
      }
    }
  }
}

=== FILE: wordlists.dfy ===
/**
 The reference word lists: common European words, the ION list of extra
 names the downloader adds to the corpus, the species-epithet blacklist
 and the uninomial blacklist. Each
 list is text with one term per line and becomes a set of the trimmed
 lines. Reading the embedded text is outside the model: the texts are
 parameters.
 */
module WordLists {
  import opened Text

  datatype Data = Data(
    common: set<string>,
    ion: set<string>,
    spBlack: set<string>,
    uniBlack: set<string>)

  /** The set of a word list (`toMap`): every line of `s`, trimmed, and
      nothing else. No case folding is applied, so no member has white
      space at its ends but members keep their capitals. */
  function ToSet(s: string): (r: set<string>)
    ensures forall m :: m in r ==> Trimmed(m)
    ensures forall l :: l in Split(s, '\n') ==> TrimSpace(l) in r
  {
    set l | l in Split(s, '\n') :: TrimSpace(l)
  }

  /** Each member comes from a line: a member is the trimmed form of some
      line of the text. */
  lemma ToSetFromLine(s: string, m: string)
    requires m in ToSet(s)
    ensures exists i :: 0 <= i < |Split(s, '\n')| && TrimSpace(Split(s, '\n')[i]) == m
  {
    var lines := Split(s, '\n');
    var l :| l in lines && TrimSpace(l) == m;
    var i :| 0 <= i < |lines| && lines[i] == l;
  }

  /** A line without white space at its ends is a member exactly as
      written, capital letters included. */
  lemma ToSetKeepsLine(s: string, l: string)
    requires l in Split(s, '\n') && Trimmed(l)
    ensures l in ToSet(s)
  {
    var lines := Split(s, '\n');
    var i :| 0 <= i < |lines| && lines[i] == l;
    TrimSpaceTrimmed(l);
  }

  /** Text ending with a line break (a blank last line) puts the empty
      string into the set. */
  lemma ToSetTrailingNewline(s: string)
    requires |s| > 0 && s[|s| - 1] == '\n'
    ensures "" in ToSet(s)
  {
    var x := s[..|s| - 1];
    assert s == x + ['\n'] + "";
    SplitConcat(x, "", '\n');
    var lines := Split(s, '\n');
    assert lines[|lines| - 1] == "";
    assert TrimSpace("") == "";
  }

  /** The four word lists, each read with `ToSet`. */
  function New(commonText: string, ionText: string, spBlackText: string, uniBlackText: string): (d: Data)
    ensures forall m :: m in d.common ==> Trimmed(m)
    ensures forall m :: m in d.ion ==> Trimmed(m)
    ensures forall m :: m in d.spBlack ==> Trimmed(m)
    ensures forall m :: m in d.uniBlack ==> Trimmed(m)
  {
    Data(ToSet(commonText), ToSet(ionText), ToSet(spBlackText), ToSet(uniBlackText))
  }
}
